=== FILE: README.md ===
# Restaurant reservation client: session store and routing decisions

A Dafny model of the client-side core of a restaurant table-reservation
web client written in React. It covers:

- **The persisted session.** `localStorage` is an immutable
  `map<string, string>`. The authentication context (`AuthProvider`) keeps
  an in-memory session of `token`, `role` and `loading`. Three operations
  change it: the mount-time restore, `login` and `logout`. The helpers in
  `utils/auth.ts` and `utils/user.tsx` read the same storage.
- **The routing and authorisation decisions that read storage.** These are
  `ProtectedRoute`, the route table of `App`, the `Home` redirect, the
  "Go to Dashboard" button of `HomePage`, the login page's mount redirect
  and post-login redirect, and the navigation bar's role and buttons. Each
  is a pure function from storage to a destination. The `Navigation` module
  composes them. It shows where a visitor ends up for each state of storage.
- **The view-level rules.** These cover the login and registration forms,
  the administrator's pagination, filter, row actions and message box, and
  the guest's reservation form, list and cancellation.

Every foreign effect is an input:

- `jwtDecode` is a total function `string -> Option<Claims>`. `None` is the
  library's thrown error.
- `Date.now()` is a millisecond integer.
- Each HTTP call's outcome is a `Reply<T>`: a body, or an error with an
  optional status, server message and client message.
- `window.confirm` is a boolean.
- `navigate` and `<Navigate>` become a returned `Path`.
- `alert` becomes a returned value.

JavaScript's semantics are written out:

- A `string | null` is truthy only when it is present and non-empty
  (`Text.Truthy`). A stored empty token therefore counts as no token.
- `a || b` is `Text.Or`.
- `trim` removes exactly the ECMAScript white-space and line-terminator
  characters.
- `${status}` renders a number in decimal.
- `decoded.exp * 1000 < Date.now()` is never true when `exp` is missing,
  because the product is `NaN`. A token without `exp` therefore never
  expires.

Four facts about the code shape the model:

- Neither `ProtectedRoute` nor the route table consults the authentication
  context. Both read `localStorage` directly, so neither waits for the
  context's `loading` to end.
- No code checks that a role is `ADMIN` or `USER`. The context stores the
  `role` claim verbatim, without upper-casing it.
- The context's `login` writes the token before decoding it, and does not
  catch the decoder's exception.
- The guards read the separately stored `"role"` key, not the token's
  claim. Only the login page writes that key; the context's `login` never
  does.

`ProtectedRoute` is defined but never mounted: the route table of `App`
inlines its own guards instead. It is modelled as the component it is, and
`Agreements.RouteTableVersusGuard` compares it with the route table, but no
navigation passes through it. `HomePage` is in the same position: `App`
routes `/` to `Home`, and no file imports `HomePage`. Its button is modelled
and `Agreements.DashboardButtonAgreesWithHome` compares it with `Home`, but
no visitor ever sees it.

The guards do not all read storage at the same moment. `App` reads it once,
when the page loads, and its route table keeps using that reading. `Home`
and the login page's mount redirect read storage when they are shown.
`Navigation.Next` therefore takes both readings. Lemmas that relate parts
of the client that never call each other sit in `Agreements`. The
composition lemmas make several consequences explicit:

- The route table sends a wrong-role user to `/login`, while
  `ProtectedRoute` sends them to `/` (`Agreements.RouteTableVersusGuard`).
- On a page loaded with a token whose stored role is neither `ADMIN` nor
  `USER`, the client bounces between `/user` and `/login` forever. A
  missing stored role counts as such a role
  (`Navigation.UnknownRoleNeverSettles`, `Navigation.UnknownRoleCycles`).
- On storage that holds no `"role"` key, a login through the context's
  `login` never lands on a dashboard, with or without a reload
  (`Navigation.ContextLoginNeverLands`). A role left behind by an earlier
  save of the login page still decides the dashboard after a reload,
  whatever the new token claims (`Navigation.ContextLoginKeepsStoredRole`).
- A login through the login page lands on its dashboard after a reload
  whenever the derived role is `ADMIN` or `USER`
  (`Navigation.SavedLoginLandsAfterReload`). Without a reload it lands only
  if the route table already admitted that role when the page loaded.
  Otherwise, for instance on a page loaded signed out, the dashboard and
  `/login` redirect to each other forever (`Navigation.SavedLoginInSession`).
- An expired token is purged after `App` has read storage. Until a reload
  the route table still opens the dashboard of the role stored beside it
  (`Navigation.ExpiredTokenLeadsToLogin`).

## Model

| member | source | states |
|---|---|---|
| `Text.Upper` | src/utils/auth.ts:13 | `toUpperCase` keeps the length and maps each character to its upper-case form (ASCII letters only) |
| `Text.UpperIdempotent` | src/components/Navbar.tsx:10-16 | upper-casing an already upper-cased role changes nothing, so the bar's second `toUpperCase` of the stored role is harmless |
| `Text.Trim` | src/pages/Login.tsx:53-54 | `trim` returns the slice of the input left after cutting the white space at both ends: the slice neither starts nor ends with white space, and everything cut before and after it is white space |
| `Text.TrimEmptyIffBlank` | src/pages/Login.tsx:44 | `!s.trim()` holds exactly when every character of `s` is white space, the empty string included |
| `Text.TrimIdempotent` | src/pages/Login.tsx:53-54 | trimming a trimmed value changes nothing |
| `Text.Or` | src/utils/auth.ts:13 | `o or d` yields `o` when it is a non-empty string and `d` otherwise; it is empty only when both are |
| `Text.NatToString` | src/pages/AdminPage.tsx:52 | a number in a template literal renders as a non-empty run of decimal digits with no leading zero |
| `Text.DecimalRoundTrip` | src/pages/AdminPage.tsx:52 | reading the rendered digits back yields the number |
| `Text.NatToStringInjective` | src/pages/Login.tsx:66 | distinct statuses render as distinct texts |
| `Storage.GetItem` | src/utils/auth.ts:4 | `getItem` is present exactly when the key is stored, with the stored value |
| `Storage.SetItem` | src/pages/Login.tsx:30-35 | `setItem` makes the key hold the value and leaves every other key alone |
| `Storage.RemoveItem` | src/utils/auth.ts:20-21 | `removeItem` drops that key and leaves every other key alone |
| `Storage.Clear` | src/context/AuthContext.tsx:62 | after `clear` no key can be read |
| `Storage.HasToken` | src/components/ProtectedRoute.tsx:9-13 | a token counts as present exactly when the `"token"` key is stored with a non-empty value |
| `Storage.StoredRole` | src/components/ProtectedRoute.tsx:10 | the stored role is upper-cased, and a missing `"role"` key reads as `""` |
| `Jwt.Expired` | src/context/AuthContext.tsx:36-38 | a token whose payload has no `exp` is never expired, whatever the clock reads |
| `Jwt.ExpiryBoundary` | src/context/AuthContext.tsx:38 | a token is still live at exactly `exp * 1000` milliseconds and expired one millisecond later |
| `Jwt.ExpiryMonotone` | src/context/AuthContext.tsx:38 | once expired, a token stays expired as the clock moves forward |
| `Http.Describe` | src/pages/UserPage.tsx:49-52 | the error text is the server message, else the error message, else the fixed default, and it is non-empty when the default is |
| `Http.StatusText` | src/pages/AdminPage.tsx:52 | a missing or zero status reads "NO STATUS"; any other status is exactly its canonical decimal rendering, digits that read back as the status |
| `Http.StatusLine` | src/pages/AdminPage.tsx:46-53 | the administrator's error line is "STATUS: ", the status text, a space-padded vertical bar and the description, in that order and nothing else |
| `Http.StatusTextOneLine` | src/pages/Login.tsx:66 | no rendering of a status contains a line break |
| `Http.AlertText` | src/pages/Login.tsx:62-66 | the login page's error alert has "STATUS: " and the status text as its whole first line, then "MESSAGE: " and the description |
| `AuthContext.Mount` | src/context/AuthContext.tsx:23-25 | the session starts with no token, no role and `loading` true |
| `AuthContext.Restore` | src/context/AuthContext.tsx:27-51 | no token: storage and session are untouched and only `loading` ends. A token that does not decode, or one with `exp*1000 < now`, clears all of storage and keeps the session. A live token (the boundary counts as live) becomes the session token, with the role claim verbatim. Every path ends with `loading` false |
| `AuthContext.RestoreOnMount` | src/context/AuthContext.tsx:23-51 | from mount, a session exists iff a live decodable token is stored. A session matches storage. A failed restore that saw a token wipes storage; one that saw no token leaves it |
| `AuthContext.Login` | src/context/AuthContext.tsx:53-59 | the token is persisted before decoding. An undecodable token throws with the token stored and the session unchanged. Otherwise the session takes the token and the claim's role, unexpired or not. The `"role"` key is never written |
| `AuthContext.Logout` | src/context/AuthContext.tsx:61-65 | storage is emptied, token and role become null, and `loading` is untouched |
| `AuthContext.LogoutIdempotent` | src/context/AuthContext.tsx:61-65 | logging out twice equals logging out once |
| `AuthContext.OperationsKeepSessionMatchingStore` | src/context/AuthContext.tsx:53-65 | `logout`, and a `login` that does not throw, keep the session's token equal to the stored, decodable token with its role claim |
| `AuthContext.ThrowingLoginDesyncs` | src/context/AuthContext.tsx:53-55 | a `login` that throws on a live session leaves storage holding the new token while the session keeps the old one, so they no longer match |
| `AuthUtils.GetToken` | src/utils/auth.ts:3-5 | `getToken` returns exactly the stored `"token"` value |
| `AuthUtils.GetRole` | src/utils/auth.ts:7-17 | null without a token or when decoding fails; otherwise the upper-cased role claim, defaulting to "USER". Never empty, always upper case |
| `AuthUtils.GetRoleIgnoresStoredRole` | src/utils/auth.ts:7-17 | writing or removing the stored `"role"` key never changes `getRole` |
| `AuthUtils.Logout` | src/utils/auth.ts:19-22 | exactly `"token"` and `"role"` are removed; every other key keeps its value |
| `AuthUtils.LogoutIdempotent` | src/utils/auth.ts:7-22 | the helper logout is idempotent, and afterwards `getToken` and `getRole` are both null |
| `AuthUtils.ConfirmLogout` | src/components/Navbar.tsx:22-28 | a declined confirmation changes nothing and navigates nowhere. An accepted one is exactly the helper `logout` (the token and role removed, every other key kept) and goes to `/login` |
| `UserUtil.IdOrNull` | src/utils/user.tsx:11 | the `userId` fallback to null is null exactly for a missing or empty id |
| `UserUtil.ExpOrNull` | src/utils/user.tsx:13 | the `exp` fallback to null is null exactly for a missing or zero `exp` |
| `UserUtil.GetLoggedInUser` | src/utils/user.tsx:3-18 | null without a token or on a decode failure. Otherwise the role is the claim or "USER" (not upper-cased), and `userId`/`exp` are null exactly when falsy and equal to the claims otherwise |
| `Agreements.UserAgreesWithGetRole` | src/utils/user.tsx:3-18 | there is a logged-in user exactly when `getRole` is non-null, and `getRole` is the upper-cased user role |
| `ProtectedRoute.Decide` | src/components/ProtectedRoute.tsx:8-23 | no token goes to `/login` whatever the required role. With a token, a required role unequal to the upper-cased stored role goes to `/`. The children render iff a token is present and no role is required or the roles match. `/` is never chosen without a token |
| `ProtectedRoute.MissingRoleFailsEveryRestriction` | src/components/ProtectedRoute.tsx:10-20 | a token without a stored role passes an unrestricted guard and fails every restricted one |
| `ProtectedRoute.StoredRoleCaseInsensitive` | src/components/ProtectedRoute.tsx:10-18 | for every stored role value and every required role, the guard decides as it would had the value been stored upper-cased |
| `App.Route` | src/App.tsx:8-37 | `/` and `/login` render unguarded. `/admin` (`/user`) renders iff a token is present and the upper-cased role is ADMIN (USER), else it goes to `/login`. Every other URL goes to `/` |
| `App.DashboardsExclusive` | src/App.tsx:24-32 | no storage state opens both dashboards |
| `Agreements.RouteTableVersusGuard` | src/App.tsx:21-34 | the route table admits exactly whom `ProtectedRoute` admits for that role, but sends a wrong-role user to `/login` where the guard sends them to `/` |
| `Home.Redirect` | src/pages/Home.tsx:3-16 | no token goes to `/login`. A token with role ADMIN (any case) goes to `/admin`, and any other role goes to `/user`. It never stays on `/` |
| `Home.MissingRoleGoesToUser` | src/pages/Home.tsx:5-15 | a token with no stored role goes to `/user` |
| `HomePage.GoDashboard` | src/pages/HomePage.tsx:7-18 | no token goes to `/login`; with a token it goes to `/admin` iff the upper-cased role is ADMIN, else to `/user` |
| `Agreements.DashboardButtonAgreesWithHome` | src/pages/HomePage.tsx:7-18 | the button goes exactly where `Home` redirects, for every storage state |
| `LoginPage.SelectTab` | src/pages/Login.tsx:134-168 | a tab click shows that tab and changes no other field |
| `LoginPage.AutoRedirect` | src/pages/Login.tsx:19-27 | with a token it goes to `/admin` iff the upper-cased stored role is ADMIN, else to `/user`; without one it stays |
| `Agreements.AutoRedirectAgreesWithHome` | src/pages/Login.tsx:19-27 | whenever the mount redirect moves, it goes where `Home` would |
| `LoginPage.SaveTokenAndRedirect` | src/pages/Login.tsx:29-41 | the token is stored verbatim. The role is the upper-cased claim or "USER" and is stored too. The target is `/admin` iff the role is ADMIN, else `/user`. A decode failure throws with only the token written |
| `Agreements.SavedSessionReadsBack` | src/pages/Login.tsx:29-41 | after a save, the stored role the guards read, `getRole` and the mount redirect all agree with the saved role and target |
| `LoginPage.StartLogin` | src/pages/Login.tsx:43-55 | a blank email or password is refused with no request and `loading` untouched; otherwise `loading` rises and non-empty trimmed credentials are sent |
| `LoginPage.ResponselessAlert` | src/pages/Login.tsx:61-66 | an error without a response alerts "NO STATUS" with the error's own message, or the fallback when that message is empty |
| `LoginPage.FinishLogin` | src/pages/Login.tsx:51-69 | a decodable token is saved, navigates to its target and clears email and password. An undecodable one stays stored and raises the same alert as a request failure with no status and the decoder's message. A failed request changes only `loading`. Only a navigation avoids an error alert. `loading` ends false |
| `LoginPage.HandleLogin` | src/pages/Login.tsx:43-70 | a refused form changes nothing. An accepted one is exactly raising `loading` and then completing the request, and ends with `loading` false. Only a login that stored a role navigates, and it clears both fields |
| `LoginPage.StartRegister` | src/pages/Login.tsx:72-86 | name, email and password must all be non-blank; the request is trimmed and always asks for role USER |
| `LoginPage.FinishRegister` | src/pages/Login.tsx:80-107 | success goes to the LOGIN tab and clears the password but keeps the email. A 409 goes to the LOGIN tab and keeps both. Other failures only alert. `loading` ends false on every path, the 409 return included |
| `LoginPage.HandleRegister` | src/pages/Login.tsx:72-108 | a refused form changes nothing; an accepted one is exactly raising `loading` and then completing the request, and ends with `loading` false, on the LOGIN tab iff it succeeded, hit 409, or was already there |
| `LoginPage.FirstView` | src/pages/Login.tsx:8-14 | the page opens on the LOGIN tab with the name prefilled and not blank, and a first click on Login is refused because email and password are empty |
| `LoginPage.RegisterThenLogin` | src/pages/Login.tsx:43-92 | after a successful registration the login tab keeps the email but refuses to log in until a password is typed again; then the registered email goes out |
| `Navbar.DisplayedRole` | src/components/Navbar.tsx:8-20 | no token: the upper-cased stored role, with no decode. Decodable token: the upper-cased claim, else the stored role, else USER. Decode failure: the stored role. Always upper case |
| `Navbar.Render` | src/components/Navbar.tsx:30-61 | the role label appears iff there is a token. Login is shown iff there is no token and Logout iff there is one. The USER (ADMIN) dashboard button appears iff there is a token and the role is USER (ADMIN), and never both |
| `Navbar.BarTrustsTokenOverStorage` | src/components/Navbar.tsx:10-16 | a token claiming "admin" with no stored role shows the admin button although the stored role the guards read is empty |
| `Agreements.BarShowsSavedRole` | src/components/Navbar.tsx:8-20 | right after the login page saves a non-empty token, the bar shows exactly the saved role, and its admin button iff the page headed for `/admin` |
| `AdminPage.ClickPrevious` | src/pages/AdminPage.tsx:320-322 | Previous is disabled iff `page <= 1`; an enabled click goes back one page and keeps `1 <= page <= pages` |
| `AdminPage.ClickNext` | src/pages/AdminPage.tsx:338-340 | Next is disabled iff `page >= pages`; an enabled click goes forward one page and keeps `1 <= page <= pages` |
| `AdminPage.NextThenPrevious` | src/pages/AdminPage.tsx:321-340 | an enabled Next followed by Previous returns to the same state |
| `AdminPage.ChangeFilter` | src/pages/AdminPage.tsx:186-191 | choosing a status filter resets the page to 1 and changes nothing else |
| `AdminPage.RowActions` | src/pages/AdminPage.tsx:278-311 | Cancel iff ACTIVE, Restore iff CANCELLED, never both |
| `AdminPage.CompletedHasNoAction` | src/pages/AdminPage.tsx:279-296 | a COMPLETED row offers neither action |
| `AdminPage.StartFetch` | src/pages/AdminPage.tsx:33-40 | a fetch clears the message, raises `loading`, and asks for five rows of the current filter at the given page |
| `AdminPage.FinishFetch` | src/pages/AdminPage.tsx:37-56 | success adopts the server's rows, page and page count. Failure keeps everything else and shows the status line with the "Failed to load" fallback. `loading` ends false |
| `AdminPage.FetchClearsOldMessage` | src/pages/AdminPage.tsx:33-56 | after a complete fetch the message box shows something iff the fetch failed, and `loading` is false |
| `AdminPage.RunAction` | src/pages/AdminPage.tsx:33-111 | a declined confirmation sends nothing and changes nothing. A failure shows the status line with the action's fallback and changes nothing else. A success ends with the message box cleared and `loading` raised, waiting on a refetch of the current page and filter: the unawaited refetch overwrites the success text in the same update |
| `AdminPage.FirstLoad` | src/pages/AdminPage.tsx:11-116 | the page opens on page 1 of 1 with both pager buttons disabled; its first fetch asks for page 1, five rows, ACTIVE, and leaves `loading` false with a message iff it failed |
| `AdminPage.ActionThenRefetch` | src/pages/AdminPage.tsx:33-111 | after a successful action and its refetch, a message is shown iff the refetch failed, and it is an error; a failed action shows its own non-empty error and refetches nothing |
| `UserPage.DefaultSlotIsFirst` | src/pages/UserPage.tsx:18-31 | there are exactly four distinct slots and the default is the first |
| `UserPage.StartCreate` | src/pages/UserPage.tsx:63-69 | an empty date, an empty slot or fewer than one guest is refused with an error message and no request; otherwise `loading` rises and the form is sent |
| `UserPage.FirstView` | src/pages/UserPage.tsx:17-64 | the form opens invalid because no date is picked, and becomes valid once any date is; the first list load asks for ACTIVE reservations |
| `UserPage.FormInvalid` | src/pages/UserPage.tsx:64 | for a slot picked from the slot select, the form is invalid exactly when the date is empty or fewer than one guest is asked for |
| `UserPage.ResetForm` | src/pages/UserPage.tsx:75-77 | the reset form has date "", one guest and the first slot, and nothing else changes |
| `UserPage.FinishCreate` | src/pages/UserPage.tsx:39-91 | failure keeps the form and shows the fallback chain ending in "Reservation failed". Success resets the form and ends with the message box cleared and `loadingList` raised, waiting on a list request for the current filter: the unawaited list load overwrites the success text. `loading` ends false |
| `UserPage.CreateOutcome` | src/pages/UserPage.tsx:63-91 | a sent reservation ends with `loading` false, and either an empty (invalid) form on success or the typed form on failure |
| `UserPage.StartList` | src/pages/UserPage.tsx:39-44 | loading the list raises `loadingList`, clears the message and asks for the current filter |
| `UserPage.FinishList` | src/pages/UserPage.tsx:43-56 | a falsy body gives the empty list. A failure keeps the list and shows the fallback chain ending in "Failed to load reservations". `loadingList` ends false, and nothing but the list, `loadingList` and the message changes |
| `UserPage.ListLoadClearsOldMessage` | src/pages/UserPage.tsx:39-57 | after a complete list load a message is shown iff the load failed, `loadingList` is false, and success shows the server's list |
| `UserPage.CreateThenList` | src/pages/UserPage.tsx:39-91 | after a created reservation and its list load the form is reset, nothing is loading, and a message is shown iff the load failed, as an error |
| `Agreements.CancelOfferedAsForAdmin` | src/pages/UserPage.tsx:169 | the guest's Cancel appears exactly for ACTIVE reservations, the same rows where the administrator's Cancel appears, and never beside a Restore |
| `UserPage.CancelReservation` | src/pages/UserPage.tsx:39-102 | a declined confirmation sends nothing and changes nothing. A failed cancel alerts and changes nothing on the page. A successful one clears the message box, raises `loadingList` and requests the list for the current filter |
| `UserPage.CancelThenList` | src/pages/UserPage.tsx:39-102 | after a successful cancel and a successful list load the page shows the server's list with no message and nothing else changed |
| `UserPage.HandleLogout` | src/pages/UserPage.tsx:33-37 | a declined confirmation changes nothing; an accepted one is exactly the context's `logout` (all of storage wiped, token and role null, `loading` kept) and goes to `/login` |
| `Agreements.LogoutsCompared` | src/pages/UserPage.tsx:33-37 | the guest page's logout and the bar's both go to `/login` with nothing left for `Home` to redirect on, but only the bar's keeps the keys other than `"token"` and `"role"` |
| `Navigation.Next` | src/App.tsx:7-37 | rendering a URL moves, if at all, to one of the four known paths; it stays exactly on a dashboard the route table admitted when the page loaded, or on `/login` when current storage holds no token |
| `Navigation.Bounces` | src/pages/Login.tsx:19-27 | two URLs that redirect to each other are revisited every second move, forever |
| `Navigation.SignedOutEndsOnLogin` | src/App.tsx:15-37 | on a page loaded without a token every URL reaches `/login` within two moves and stays there |
| `Navigation.KnownRoleEndsOnDashboard` | src/App.tsx:15-37 | on a page loaded with a token and a stored role of ADMIN or USER, every URL reaches that dashboard within two moves and stays there |
| `Navigation.UnknownRoleNeverSettles` | src/App.tsx:32 | on a page loaded with a token and any other stored role, including none, no URL stays put: `/user` goes to `/login` and the login mount redirect goes back to `/user` |
| `Navigation.UnknownRoleCycles` | src/pages/Login.tsx:19-27 | in that state, the visitor is back on `/user` after every second move, forever |
| `Navigation.ContextLoginNeverLands` | src/context/AuthContext.tsx:53-59 | after the context's `login` on storage without a `"role"` key, no URL settles, whatever the token's role, both on the page already loaded (if it had read no role) and after a reload |
| `Navigation.ContextLoginKeepsStoredRole` | src/context/AuthContext.tsx:53-59 | the context's `login` keeps a stored ADMIN or USER role, so after a reload that role's dashboard renders and stays, whatever the new token claims |
| `Navigation.SavedLoginLandsAfterReload` | src/pages/Login.tsx:29-41 | after the login page saves a token with derived role ADMIN (USER), a reload renders the admin (user) dashboard at its target; with any other role no URL settles |
| `Navigation.SavedLoginInSession` | src/App.tsx:7-34 | without a reload the login page's target stays put iff the route table admitted that role when the page loaded; otherwise the target and `/login` redirect to each other forever |
| `Navigation.ExpiredTokenLeadsToLogin` | src/context/AuthContext.tsx:27-42 | an expired stored token is purged on mount. `ProtectedRoute`, were it mounted, would then redirect to `/login`; a `/` or `/login` visited after the purge goes to or stays on `/login`, and after a reload every URL reaches `/login`; until then the stored role's dashboard still renders. On the purging load itself `Home` and the login page have already followed the stale token |

## Left out

- JSX, layout and styles. The spinner component is purely presentational, and the application entry point is bootstrapping.
- The HTTP client and the remote API. Each call's outcome is an input. A login response without a `token` field is not modelled; the token is always a string.
- The internals of `jwtDecode` (compact-serialisation parsing, base64url and JSON decoding). Claims whose JSON type differs from the model's are not modelled: a numeric `role` would make `toUpperCase` throw, and a fractional `exp` is not representable.
- Text.Upper: models `toUpperCase` for ASCII letters only. JavaScript's full Unicode mapping also turns ı (U+0131) into I and ſ (U+017F) into S, so a stored role such as "admın" passes the ADMIN checks of src/components/ProtectedRoute.tsx:18, src/App.tsx:24 and src/pages/Home.tsx:11 in the program but not in the model. Other non-ASCII mappings, some of which change a string's length, differ in the same way.
- React scheduling is not modelled: effect ordering, re-renders, StrictMode double invocation, and overlapping asynchronous fetches. The refetches that `useEffect` triggers on a page or filter change are left to the caller. The unawaited refetch after a successful action, reservation or cancellation is modelled up to its synchronous part (the message cleared, the loading flag raised) and returned as a pending request.
- `App` renders only when the page loads, so its route table keeps the storage it read then; `Navigation` takes that reading as a separate input. What a reload is (a fresh `App` reading current storage) is stated by passing the same storage twice. React Router's case-insensitive and trailing-slash path matching is not modelled; URLs are compared exactly.
- `useAuth`'s error outside a provider is React context plumbing.
- The exact texts of the success alerts on the login page are abstract `Alert` values. The decoder's exception message is an input (`decodeError`), since the decoding library is not modelled.
- AdminPage.RunAction: does not promise that a success message stays on screen after a successful action, because the unawaited refetch clears it in the same update.
- UserPage.FinishCreate: does not promise that the "Reservation created successfully" message stays on screen, for the same reason.
- `console.log` in the navigation bar, and the list rendering of fields the pages only display (user email, table number, capacity).
- UserPage.StartCreate: guests is an integer. A fractional or `NaN` guest count from `Number(...)` is not modelled.

=== FILE: admin_page.dfy ===
/** The administrator's dashboard: a paginated, status-filtered list of
    all reservations, with cancel and restore actions on single rows and
    a message box for the outcome. */
module AdminPage {
  import opened Options
  import opened Text
  import opened Http

  /** One listed reservation; only the fields the page decides on. */
  datatype Row = Row(id: string, status: string)

  datatype State = State(
    rows: seq<Row>,
    page: int,
    pages: int,
    loading: bool,
    statusFilter: string,
    msg: Option<Message>)

  const Initial := State([], 1, 1, false, "ACTIVE", None)

  // ------------------------------------------------------------ pagination

  /** The page number lies within the known page count. */
  predicate InRange(s: State) {
    1 <= s.page <= s.pages
  }

  predicate PreviousDisabled(s: State) {
    s.page <= 1
  }

  predicate NextDisabled(s: State) {
    s.page >= s.pages
  }

  /** A click on Previous: one page back when enabled, nothing when not. */
  function ClickPrevious(s: State): (r: State)
    ensures PreviousDisabled(s) ==> r == s
    ensures !PreviousDisabled(s) ==> r == s.(page := s.page - 1)
    ensures InRange(s) ==> InRange(r)
    ensures r.page <= s.page
  {
    if PreviousDisabled(s) then s else s.(page := s.page - 1)
  }

  /** A click on Next: one page forward when enabled, nothing when not. */
  function ClickNext(s: State): (r: State)
    ensures NextDisabled(s) ==> r == s
    ensures !NextDisabled(s) ==> r == s.(page := s.page + 1)
    ensures InRange(s) ==> InRange(r)
    ensures r.page >= s.page
  {
    if NextDisabled(s) then s else s.(page := s.page + 1)
  }

  /** An enabled Next followed by Previous comes back to the same page. */
  lemma NextThenPrevious(s: State)
    requires InRange(s) && !NextDisabled(s)
    ensures ClickPrevious(ClickNext(s)) == s
  {
  }

  /** Choosing a status filter goes back to the first page. */
  function ChangeFilter(s: State, status: string): (r: State)
    ensures r.page == 1 && r.statusFilter == status
    ensures r.(page := s.page, statusFilter := s.statusFilter) == s
    ensures PreviousDisabled(r)
  {
    s.(page := 1, statusFilter := status)
  }

  // ----------------------------------------------------------- row actions

  datatype Actions = Actions(cancel: bool, restore: bool)

  /** Cancel is offered for `ACTIVE` rows and Restore for `CANCELLED` ones;
      a row never offers both, and every other status offers neither. */
  function RowActions(status: string): (a: Actions)
    ensures a.cancel <==> status == "ACTIVE"
    ensures a.restore <==> status == "CANCELLED"
    ensures !(a.cancel && a.restore)
  {
    Actions(status == "ACTIVE", status == "CANCELLED")
  }

  lemma CompletedHasNoAction()
    ensures RowActions("COMPLETED") == Actions(false, false)
  {
  }

  // -------------------------------------------------------------- fetching

  datatype FetchRequest = FetchRequest(page: int, limit: nat, status: string)

  /** The response body of a list request. */
  datatype PageData = PageData(rows: seq<Row>, page: int, pages: int)

  /** The start of a fetch: the message box is cleared, `loading` raised,
      and five rows of the current filter are asked for. */
  function StartFetch(s: State, pageNumber: int): (r: (State, FetchRequest))
    ensures r.0 == s.(loading := true, msg := None)
    ensures r.1.page == pageNumber && r.1.limit == 5 && r.1.status == s.statusFilter
  {
    (s.(loading := true, msg := None), FetchRequest(pageNumber, 5, s.statusFilter))
  }

  /** The end of a fetch. Success adopts the server's rows, page and page
      count; failure shows `STATUS: <status> | <message>` with "Failed to
      load" as the last resort and keeps the old rows. `loading` ends false
      either way. */
  function FinishFetch(s: State, reply: Reply<PageData>): (r: State)
    ensures !r.loading
    ensures r.statusFilter == s.statusFilter
    ensures reply.Ok? ==>
              r.rows == reply.body.rows && r.page == reply.body.page
              && r.pages == reply.body.pages && r.msg == s.msg
    ensures reply.Failed? ==>
              r.(loading := s.loading, msg := s.msg) == s
              && r.msg == Some(Message(Error, StatusLine(reply.error, "Failed to load")))
  {
    match reply
    case Ok(d) => s.(rows := d.rows, page := d.page, pages := d.pages, loading := false)
    case Failed(e) => s.(loading := false, msg := Some(Message(Error, StatusLine(e, "Failed to load"))))
  }

  /** A fetch from start to finish: the message box only ever shows the
      fetch's own error, never an older message, and `loading` ends false. */
  lemma FetchClearsOldMessage(s: State, pageNumber: int, reply: Reply<PageData>)
    ensures var r := FinishFetch(StartFetch(s, pageNumber).0, reply);
            !r.loading && (r.msg.Some? <==> reply.Failed?)
  {
  }

  // ------------------------------------------------------ cancel / restore

  datatype Action = CancelAction | RestoreAction

  /** The text shown when the server gives no message of its own. */
  function SuccessDefault(a: Action): string {
    match a
    case CancelAction => "Reservation cancelled \U{2705}"
    case RestoreAction => "Reservation restored \U{2705}"
  }

  function FailureDefault(a: Action): string {
    match a
    case CancelAction => "Cancel failed"
    case RestoreAction => "Restore failed"
  }

  datatype ActionRequest = ActionRequest(action: Action, id: string)

  datatype ActionStep = ActionStep(state: State, request: Option<ActionRequest>, refetch: Option<FetchRequest>)

  /** `handleAdminCancel` / `handleAdminRestore`, up to the moment the
      action's reply has been handled. A declined confirmation sends
      nothing and changes nothing. Otherwise the request is sent. Failure
      shows the status line and touches nothing else. Success sets the
      server's message (or the default) and then calls
      `fetchAllReservations(page)` without awaiting it; that call's first,
      synchronous part clears the message box and raises `loading` in the
      same update, so the success text never reaches the screen and the
      page is left waiting for the refetch of the current page. `reply` is
      the body's `message` field on success. */
  function RunAction(s: State, a: Action, id: string, confirmed: bool, reply: Reply<Option<string>>): (r: ActionStep)
    ensures !confirmed ==> r == ActionStep(s, None, None)
    ensures confirmed ==> r.request == Some(ActionRequest(a, id))
    ensures r.state.(loading := s.loading, msg := s.msg) == s
    ensures confirmed && reply.Ok? ==>
              && r.state.msg.None? && r.state.loading
              && r.refetch == Some(FetchRequest(s.page, 5, s.statusFilter))
    ensures confirmed && reply.Failed? ==>
              && r.state.msg == Some(Message(Error, StatusLine(reply.error, FailureDefault(a))))
              && r.state.loading == s.loading
              && r.refetch.None?
    ensures r.refetch.None? ==> r.state.loading == s.loading
  {
    if !confirmed then ActionStep(s, None, None)
    else
      match reply
      case Ok(message) =>
        var shown := s.(msg := Some(Message(Success, Or(message, SuccessDefault(a)))));
        var (fetching, request) := StartFetch(shown, s.page);
        ActionStep(fetching, Some(ActionRequest(a, id)), Some(request))
      case Failed(e) =>
        ActionStep(s.(msg := Some(Message(Error, StatusLine(e, FailureDefault(a))))),
                   Some(ActionRequest(a, id)), None)
  }

  /** An action from confirmation to the end of its refetch. After a
      successful action the message box ends up showing only the refetch's
      error, if any: the action's own success text is never left on screen.
      After a failed one it shows the action's error and nothing is
      refetched. */
  lemma ActionThenRefetch(s: State, a: Action, id: string, reply: Reply<Option<string>>, fetched: Reply<PageData>)
    ensures var step := RunAction(s, a, id, true, reply);
            reply.Ok? ==>
              step.refetch.Some?
              && var r := FinishFetch(step.state, fetched);
              && !r.loading
              && (r.msg.Some? <==> fetched.Failed?)
              && (r.msg.Some? ==> r.msg.value.tone == Error)
    ensures var step := RunAction(s, a, id, true, reply);
            reply.Failed? ==>
              step.refetch.None? && step.state.msg.Some? && step.state.msg.value.text != ""
  {
    var step := RunAction(s, a, id, true, reply);
    if reply.Ok? {
      assert step.state == StartFetch(s, s.page).0;
      FetchClearsOldMessage(s, s.page, fetched);
    }
  }

  /** The page as first shown: one page known, both paging buttons
      disabled, and its first fetch asks for five `ACTIVE` rows of page 1.
      Whatever that fetch brings, `loading` ends false and a message shows
      only if it failed. */
  lemma FirstLoad(reply: Reply<PageData>)
    ensures InRange(Initial) && PreviousDisabled(Initial) && NextDisabled(Initial)
    ensures StartFetch(Initial, Initial.page).1 == FetchRequest(1, 5, "ACTIVE")
    ensures var r := FinishFetch(StartFetch(Initial, Initial.page).0, reply);
            !r.loading && (r.msg.Some? <==> reply.Failed?)
  {
    FetchClearsOldMessage(Initial, Initial.page, reply);
  }

}

=== FILE: agreements.dfy ===
/** Where separate parts of the client make the same decision, or read
    back what another part wrote, they agree. None of these parts calls
    another; the agreements hold because each reads the same storage. */
module Agreements {
  import opened Options
  import opened Text
  import opened Storage
  import opened Jwt
  import opened Routes
  import App
  import ProtectedRoute
  import Home
  import HomePage
  import LoginPage
  import Navbar
  import AuthContext
  import AuthUtils
  import UserUtil
  import AdminPage
  import UserPage

  // ------------------------------------------------------- routing choices

  /** The route table admits exactly whom `ProtectedRoute` would admit for
      the same role, but turns a wrong role away to `/login` where the
      guard sends it to `/`. */
  lemma RouteTableVersusGuard(store: Store, r: Role)
    ensures var o := App.Route(Url(Dashboard(r)), store);
            var d := ProtectedRoute.Decide(store, Some(r));
            (o.Render? <==> d == ProtectedRoute.RenderChildren)
            && (o.Redirect? ==> o.to == LoginPath)
    ensures HasToken(store) && StoredRole(store) != RoleName(r) ==>
              && App.Route(Url(Dashboard(r)), store) == App.Redirect(LoginPath)
              && ProtectedRoute.Decide(store, Some(r)) == ProtectedRoute.RedirectTo(Root)
  {
  }

  /** The button of the unmounted `HomePage` would go exactly where `Home`
      redirects, for every storage. */
  lemma DashboardButtonAgreesWithHome(store: Store)
    ensures HomePage.GoDashboard(store) == Home.Redirect(store)
  {
  }

  /** Whenever the login page's mount effect moves, it goes where `Home`
      would. */
  lemma AutoRedirectAgreesWithHome(store: Store)
    ensures LoginPage.AutoRedirect(store).Some? ==> LoginPage.AutoRedirect(store).value == Home.Redirect(store)
  {
  }

  // ------------------------------------------------ reading a saved login

  /** What `saveTokenAndRedirect` writes reads back consistently: the guards'
      stored role, `getRole` and the mount redirect all agree with the role
      and the destination it chose (for a non-empty token). */
  lemma SavedSessionReadsBack(store: Store, decode: Decoder, token: string)
    requires LoginPage.SaveTokenAndRedirect(store, decode, token).Saved?
    ensures var s := LoginPage.SaveTokenAndRedirect(store, decode, token);
            && StoredRole(s.store) == s.role
            && (token != "" ==> AuthUtils.GetRole(s.store, decode) == Some(s.role))
            && (token != "" ==> LoginPage.AutoRedirect(s.store) == Some(s.target))
  {
    var s := LoginPage.SaveTokenAndRedirect(store, decode, token);
    UpperIdempotent(Or(decode(token).value.role, "USER"));
    assert GetItem(s.store, RoleKey) == Some(s.role);
  }

  /** Right after `saveTokenAndRedirect` has stored a non-empty token, the
      bar displays exactly the role that was saved, and its admin button
      shows exactly when the page headed for `/admin`. */
  lemma BarShowsSavedRole(store: Store, decode: Decoder, token: string)
    requires token != ""
    requires LoginPage.SaveTokenAndRedirect(store, decode, token).Saved?
    ensures var s := LoginPage.SaveTokenAndRedirect(store, decode, token);
            && Navbar.DisplayedRole(s.store, decode) == s.role
            && (Navbar.Render(s.store, decode).adminDashboard <==> s.target == AdminPath)
  {
    var s := LoginPage.SaveTokenAndRedirect(store, decode, token);
    SavedSessionReadsBack(store, decode, token);
    assert s.store[TokenKey] == token;
    var claim := decode(token).value.role;
    if !Truthy(claim) {
      assert s.role == "USER";
    }
  }

  /** `getLoggedInUser` and `getRole` agree on when there is a user, and
      `getRole` is exactly the upper-cased form of the user's role. */
  lemma UserAgreesWithGetRole(store: Store, decode: Decoder)
    ensures UserUtil.GetLoggedInUser(store, decode).Some? <==> AuthUtils.GetRole(store, decode).Some?
    ensures UserUtil.GetLoggedInUser(store, decode).Some? ==>
              AuthUtils.GetRole(store, decode) == Some(Upper(UserUtil.GetLoggedInUser(store, decode).value.role))
  {
    if HasToken(store) {
      match decode(store[TokenKey])
      case None =>
      case Some(c) =>
        assert UserUtil.GetLoggedInUser(store, decode).value.role == Or(c.role, "USER");
    }
  }

  // ---------------------------------------------------------- the two pages

  /** The guest's Cancel button appears on exactly the rows where the
      administrator's does, and never beside a Restore. */
  lemma CancelOfferedAsForAdmin(r: UserPage.Reservation)
    ensures UserPage.CanCancel(r) <==> AdminPage.RowActions(r.status).cancel
    ensures UserPage.CanCancel(r) ==> !AdminPage.RowActions(r.status).restore
  {
  }

  /** The two logout buttons compared: the navigation bar's (through
      `utils/auth`) and the guest page's (through the context). Both end on
      the login page with nothing left for `Home` to redirect on, but only
      the bar's keeps the keys other than `"token"` and `"role"`; the guest
      page's wipes all of storage. */
  lemma LogoutsCompared(st: AuthContext.AuthState)
    ensures var bar := AuthUtils.ConfirmLogout(st.store, true);
            var guest := UserPage.HandleLogout(st, true);
            && bar.1 == guest.1 == Some(LoginPath)
            && Home.Redirect(bar.0) == LoginPath && Home.Redirect(guest.0.store) == LoginPath
            && (forall k :: k in st.store && k != TokenKey && k != RoleKey ==> k in bar.0)
            && (forall k :: k !in guest.0.store)
  {
  }

}

=== FILE: app.dfy ===
/** The route table of `App`: `/` and `/login` are open, `/admin` and
    `/user` are guarded inline (not through `ProtectedRoute`), and every
    other URL falls back to `/`. */
module App {
  import opened Storage
  import opened Routes

  datatype Page = HomeView | LoginView | AdminView | UserView

  datatype Outcome = Render(page: Page) | Redirect(to: Path)

  /** The guarded dashboard routes: the dashboard renders iff a token is
      present and the upper-cased stored role names the dashboard's role;
      anything else — no token, a wrong role, no role — goes to `/login`. */
  function Route(url: string, store: Store): (o: Outcome)
    ensures url == "/" ==> o == Render(HomeView)
    ensures url == "/login" ==> o == Render(LoginView)
    ensures url == "/admin" ==>
              (o == Render(AdminView) <==> HasToken(store) && StoredRole(store) == "ADMIN")
              && (o != Render(AdminView) ==> o == Redirect(LoginPath))
    ensures url == "/user" ==>
              (o == Render(UserView) <==> HasToken(store) && StoredRole(store) == "USER")
              && (o != Render(UserView) ==> o == Redirect(LoginPath))
    ensures url != "/" && url != "/login" && url != "/admin" && url != "/user" ==>
              o == Redirect(Root)
    ensures o.Redirect? ==> o.to == Root || o.to == LoginPath
  {
    var role := StoredRole(store);
    if url == "/" then Render(HomeView)
    else if url == "/login" then Render(LoginView)
    else if url == "/admin" then
      (if HasToken(store) && role == "ADMIN" then Render(AdminView) else Redirect(LoginPath))
    else if url == "/user" then
      (if HasToken(store) && role == "USER" then Render(UserView) else Redirect(LoginPath))
    else Redirect(Root)
  }

  /** No state of storage opens both dashboards. */
  lemma DashboardsExclusive(store: Store)
    ensures !(Route("/admin", store) == Render(AdminView) && Route("/user", store) == Render(UserView))
  {
  }

}

=== FILE: auth_context.dfy ===
/** The React authentication context (`AuthProvider`): an in-memory
    session of `token`, `role` and `loading`, kept beside the persisted
    storage, and changed by three operations — the mount-time restore,
    `login` and `logout`. */
module AuthContext {
  import opened Options
  import opened Text
  import opened Storage
  import opened Jwt

  /** `role` is whatever the token's `role` claim held, unvalidated and not
      upper-cased; it is absent when the claim is. */
  datatype Session = Session(token: Option<string>, role: Option<string>, loading: bool)

  datatype AuthState = AuthState(store: Store, session: Session)

  /** The provider's initial state: nothing known yet, still loading. */
  const InitialSession := Session(None, None, true)

  function Mount(store: Store): (st: AuthState)
    ensures st.store == store && st.session.loading
    ensures st.session.token.None? && st.session.role.None?
  {
    AuthState(store, InitialSession)
  }

  /** The session holds a token only when that token is the one in storage,
      it decodes, and the session's role is its `role` claim. */
  predicate MatchesStore(st: AuthState, decode: Decoder) {
    st.session.token.Some? ==>
      && GetItem(st.store, TokenKey) == st.session.token
      && decode(st.session.token.value).Some?
      && st.session.role == decode(st.session.token.value).value.role
  }

  /** The mount effect. With no (or an empty) stored token it only ends
      loading. Otherwise it decodes the token: a decode failure or an
      expired token wipes all of storage; a live token (the boundary
      `exp * 1000 == now` is live) is adopted with its role claim verbatim.
      Every path ends with `loading` false. */
  function Restore(st: AuthState, decode: Decoder, nowMs: int): (r: AuthState)
    ensures !r.session.loading
    ensures r.store == st.store || r.store == map[]
    ensures !HasToken(st.store) ==>
              r.store == st.store && r.session == st.session.(loading := false)
    ensures HasToken(st.store) && decode(st.store[TokenKey]).None? ==>
              r.store == map[] && r.session == st.session.(loading := false)
    ensures HasToken(st.store) && decode(st.store[TokenKey]).Some?
            && Expired(decode(st.store[TokenKey]).value, nowMs) ==>
              r.store == map[] && r.session == st.session.(loading := false)
    ensures HasToken(st.store) && decode(st.store[TokenKey]).Some?
            && !Expired(decode(st.store[TokenKey]).value, nowMs) ==>
              && r.store == st.store
              && r.session == Session(Some(st.store[TokenKey]), decode(st.store[TokenKey]).value.role, false)
    ensures r.session.token != st.session.token ==>
              && r.store == st.store
              && HasToken(st.store)
              && r.session.token == Some(st.store[TokenKey])
              && decode(st.store[TokenKey]).Some?
              && !Expired(decode(st.store[TokenKey]).value, nowMs)
              && r.session.role == decode(st.store[TokenKey]).value.role
  {
    var stored := GetItem(st.store, TokenKey);
    if !Truthy(stored) then
      st.(session := st.session.(loading := false))
    else
      match decode(stored.value)
      case None =>
        AuthState(Clear(), st.session.(loading := false))
      case Some(claims) =>
        if Expired(claims, nowMs) then
          AuthState(Clear(), st.session.(loading := false))
        else
          st.(session := Session(stored, claims.role, false))
  }

  /** Restoring on mount decides the session from storage alone: a session
      exists exactly when a live, decodable token is stored, it then matches
      storage, and every failed restore that saw a token wiped storage. */
  lemma RestoreOnMount(store: Store, decode: Decoder, nowMs: int)
    ensures var r := Restore(Mount(store), decode, nowMs);
            && !r.session.loading
            && (r.session.token.Some? <==>
                  HasToken(store) && decode(store[TokenKey]).Some?
                  && !Expired(decode(store[TokenKey]).value, nowMs))
            && (r.session.token.None? ==> r.session.role.None?)
            && (r.session.token.Some? ==> r.store == store)
            && (r.session.token.None? && HasToken(store) ==> r.store == map[])
            && (!HasToken(store) ==> r.store == store)
            && MatchesStore(r, decode)
  {
  }

  datatype LoginOutcome = Done(state: AuthState) | Threw(state: AuthState)

  /** `login(newToken)`: the token is written to storage first, then
      decoded. A decode failure is not caught, so the call throws with the
      token already persisted and the session untouched. The `role` key of
      storage is never written, and expiry is not checked. */
  function Login(st: AuthState, decode: Decoder, newToken: string): (r: LoginOutcome)
    ensures r.state.store == SetItem(st.store, TokenKey, newToken)
    ensures GetItem(r.state.store, RoleKey) == GetItem(st.store, RoleKey)
    ensures r.Threw? <==> decode(newToken).None?
    ensures r.Threw? ==> r.state.session == st.session
    ensures r.Done? ==>
              && r.state.session.token == Some(newToken)
              && r.state.session.role == decode(newToken).value.role
              && r.state.session.loading == st.session.loading
    ensures r.Done? ==> MatchesStore(r.state, decode)
  {
    var store := SetItem(st.store, TokenKey, newToken);
    match decode(newToken)
    case None => Threw(AuthState(store, st.session))
    case Some(claims) =>
      Done(AuthState(store, st.session.(token := Some(newToken), role := claims.role)))
  }

  /** `logout()`: all of storage is wiped and the session forgets its token
      and role; `loading` is not touched. */
  function Logout(st: AuthState): (r: AuthState)
    ensures forall k :: GetItem(r.store, k).None?
    ensures r.session.token.None? && r.session.role.None?
    ensures r.session.loading == st.session.loading
  {
    AuthState(Clear(), st.session.(token := None, role := None))
  }

  /** Logging out twice is logging out once. */
  lemma LogoutIdempotent(st: AuthState)
    ensures Logout(Logout(st)) == Logout(st)
  {
  }

  /** `logout` and a `login` that does not throw leave the session
      consistent with storage (a throwing `login` need not: see
      `ThrowingLoginDesyncs`). */
  lemma OperationsKeepSessionMatchingStore(st: AuthState, decode: Decoder, newToken: string)
    requires MatchesStore(st, decode)
    ensures MatchesStore(Logout(st), decode)
    ensures Login(st, decode, newToken).Done? ==> MatchesStore(Login(st, decode, newToken).state, decode)
  {
  }

  /** A `login` that throws has already persisted the new token, so a live
      session holding some other token no longer matches storage: the
      session keeps the old token while storage holds the new one. */
  lemma ThrowingLoginDesyncs(st: AuthState, decode: Decoder, newToken: string)
    requires MatchesStore(st, decode)
    requires st.session.token.Some? && st.session.token.value != newToken
    requires decode(newToken).None?
    ensures Login(st, decode, newToken).Threw?
    ensures !MatchesStore(Login(st, decode, newToken).state, decode)
    ensures GetItem(Login(st, decode, newToken).state.store, TokenKey) == Some(newToken)
    ensures Login(st, decode, newToken).state.session.token == st.session.token
  {
  }

}

=== FILE: auth_utils.dfy ===
/** The storage helpers of `utils/auth.ts`: reading the token, deriving
    the role from it, and a logout that removes only the two session keys. */
module AuthUtils {
  import opened Options
  import opened Text
  import opened Storage
  import opened Jwt
  import opened Routes

  /** `getToken()`: exactly what storage holds under `"token"`. */
  function GetToken(store: Store): (r: Option<string>)
    ensures r.Some? <==> TokenKey in store
    ensures r.Some? ==> r.value == store[TokenKey]
  {
    GetItem(store, TokenKey)
  }

  /** `getRole()`: `null` without a (non-empty) token or when the token does
      not decode; otherwise the token's `role` claim upper-cased, with a
      missing or empty claim read as `"USER"`. The stored `"role"` key is
      never consulted. */
  function GetRole(store: Store, decode: Decoder): (r: Option<string>)
    ensures !HasToken(store) ==> r.None?
    ensures HasToken(store) && decode(store[TokenKey]).None? ==> r.None?
    ensures HasToken(store) && decode(store[TokenKey]).Some? ==>
              r == Some(Upper(Or(decode(store[TokenKey]).value.role, "USER")))
    ensures r.Some? ==> r.value != "" && IsUpper(r.value)
  {
    var token := GetToken(store);
    if !Truthy(token) then None
    else
      match decode(token.value)
      case None => None
      case Some(claims) =>
        UpperIsUpper(Or(claims.role, "USER"));
        Some(Upper(Or(claims.role, "USER")))
  }

  /** Whatever storage holds under `"role"` has no bearing on `getRole`. */
  lemma GetRoleIgnoresStoredRole(store: Store, decode: Decoder, v: string)
    ensures GetRole(SetItem(store, RoleKey, v), decode) == GetRole(store, decode)
    ensures GetRole(RemoveItem(store, RoleKey), decode) == GetRole(store, decode)
  {
    assert GetItem(SetItem(store, RoleKey, v), TokenKey) == GetItem(store, TokenKey);
    assert GetItem(RemoveItem(store, RoleKey), TokenKey) == GetItem(store, TokenKey);
  }

  /** `logout()`: removes `"token"` and `"role"` and nothing else. */
  function Logout(store: Store): (r: Store)
    ensures r.Keys == store.Keys - {TokenKey, RoleKey}
    ensures forall k :: k in r ==> r[k] == store[k]
  {
    RemoveItem(RemoveItem(store, TokenKey), RoleKey)
  }

  /** Logging out twice is logging out once, and afterwards neither the
      token nor a role can be read back. */
  lemma LogoutIdempotent(store: Store, decode: Decoder)
    ensures Logout(Logout(store)) == Logout(store)
    ensures GetToken(Logout(store)).None?
    ensures GetRole(Logout(store), decode).None?
  {
  }

  /** The confirm-gated logout of the navigation bar and the administrator's
      page: a declined confirmation changes nothing and goes nowhere; an
      accepted one logs out and goes to the login page. */
  function ConfirmLogout(store: Store, confirmed: bool): (r: (Store, Option<Path>))
    ensures !confirmed ==> r == (store, None)
    ensures confirmed ==> r.0 == Logout(store)
    ensures confirmed ==> r.1 == Some(LoginPath) && !HasToken(r.0) && RoleKey !in r.0
    ensures confirmed ==> forall k :: k in store && k != TokenKey && k != RoleKey ==> k in r.0 && r.0[k] == store[k]
  {
    if confirmed then (Logout(store), Some(LoginPath)) else (store, None)
  }

}

=== FILE: home.dfy ===
/** `Home`, the page behind `/`: it always redirects, choosing the login
    page or a dashboard from storage. */
module Home {
  import opened Storage
  import opened Routes

  function Redirect(store: Store): (p: Path)
    ensures p == LoginPath <==> !HasToken(store)
    ensures p == AdminPath <==> HasToken(store) && StoredRole(store) == "ADMIN"
    ensures p == UserPath <==> HasToken(store) && StoredRole(store) != "ADMIN"
    ensures p != Root
  {
    if !HasToken(store) then LoginPath
    else if StoredRole(store) == "ADMIN" then AdminPath
    else UserPath
  }

  /** Any role other than `ADMIN` — a missing one included — lands on the
      user dashboard. */
  lemma MissingRoleGoesToUser(store: Store)
    requires HasToken(store) && RoleKey !in store
    ensures Redirect(store) == UserPath
  {
  }

}

=== FILE: home_page.dfy ===
/** `HomePage`'s "Go to Dashboard" button, the page's only decision. The
    page is never mounted: `App` routes `/` to `Home` and no file imports
    `HomePage`. */
module HomePage {
  import opened Storage
  import opened Routes

  function GoDashboard(store: Store): (p: Path)
    ensures !HasToken(store) ==> p == LoginPath
    ensures HasToken(store) ==> (p == AdminPath <==> StoredRole(store) == "ADMIN")
    ensures HasToken(store) ==> p == AdminPath || p == UserPath
  {
    if !HasToken(store) then LoginPath
    else if StoredRole(store) == "ADMIN" then AdminPath
    else UserPath
  }

}

=== FILE: http.dfy ===
/** The outcome of a call through the client's HTTP wrapper, and the ways
    the pages turn a failure into text. The wrapper and the remote API are
    not modelled: each call's outcome is an input. */
module Http {
  import opened Options
  import opened Text

  /** What a failed call exposes: `err.response.status`,
      `err.response.data.message` and `err.message`, each possibly absent. */
  datatype HttpError = HttpError(status: Option<nat>, serverMessage: Option<string>, message: Option<string>)

  datatype Reply<T> = Ok(body: T) | Failed(error: HttpError)

  /** The tone of the message box a page shows. */
  datatype Tone = Success | Error

  datatype Message = Message(tone: Tone, text: string)

  /** `err?.response?.data?.message || err?.message || fallback`: the
      server's message, else the client-side message, else the fallback. */
  function Describe(e: HttpError, fallback: string): (r: string)
    ensures Truthy(e.serverMessage) ==> r == e.serverMessage.value
    ensures !Truthy(e.serverMessage) && Truthy(e.message) ==> r == e.message.value
    ensures !Truthy(e.serverMessage) && !Truthy(e.message) ==> r == fallback
    ensures fallback != "" ==> r != ""
  {
    Or(e.serverMessage, Or(e.message, fallback))
  }

  /** `${status || "NO STATUS"}`: a status of `0` or no status at all reads
      "NO STATUS"; any other status is written in decimal, and the digits
      read back as the status. */
  function StatusText(status: Option<nat>): (r: string)
    ensures r == "NO STATUS" <==> status.None? || status.value == 0
    ensures status.Some? && status.value != 0 ==> IsDigits(r) && DecimalValue(r) == status.value
    ensures status.Some? && status.value != 0 ==> r == NatToString(status.value)
  {
    if status.Some? && status.value != 0 then
      DecimalRoundTrip(status.value);
      var digits := NatToString(status.value);
      assert IsDigit(digits[0]) && !IsDigit("NO STATUS"[0]);
      digits
    else
      "NO STATUS"
  }

  /** The error line of the administrator's page:
      `STATUS: <status> | <description>`. It opens with the status, closes
      with the description, and the two are parted by `" | "`. */
  function StatusLine(e: HttpError, fallback: string): (r: string)
    ensures var st := StatusText(e.status);
            var d := Describe(e, fallback);
            && |r| == 11 + |st| + |d|
            && r[..8] == "STATUS: " && r[8..8 + |st|] == st
            && r[8 + |st|..11 + |st|] == " | " && r[11 + |st|..] == d
  {
    "STATUS: " + StatusText(e.status) + " | " + Describe(e, fallback)
  }

  /** No status rendering contains a line break. */
  lemma StatusTextOneLine(status: Option<nat>)
    ensures forall i :: 0 <= i < |StatusText(status)| ==> StatusText(status)[i] != '\n'
  {
    var st := StatusText(status);
    if st != "NO STATUS" {
      assert IsDigits(st);
    }
  }

  /** The error alert of the login page:
      `STATUS: <status>` and `MESSAGE: <description>` on two lines. The
      first line break of the alert ends the status line, so the status
      always reads as its own first line, whatever the description holds. */
  function AlertText(e: HttpError, fallback: string): (r: string)
    ensures var st := StatusText(e.status);
            var d := Describe(e, fallback);
            && |r| == 18 + |st| + |d|
            && r[..8] == "STATUS: " && r[8..8 + |st|] == st
            && (forall i :: 0 <= i < 8 + |st| ==> r[i] != '\n')
            && r[8 + |st|..18 + |st|] == "\nMESSAGE: " && r[18 + |st|..] == d
  {
    StatusTextOneLine(e.status);
    "STATUS: " + StatusText(e.status) + "\nMESSAGE: " + Describe(e, fallback)
  }

}

=== FILE: jwt.dfy ===
/** What the client reads out of a JSON Web Token. The `jwt-decode`
    library itself (compact-serialisation parsing, base64url and JSON
    decoding) is not modelled: a decoder is any total function from the
    token string to the claims, or `None` where the library throws. */
module Jwt {
  import opened Options

  /** The claims the client looks at. Each may be absent from the payload. */
  datatype Claims = Claims(role: Option<string>, exp: Option<int>, userId: Option<string>)

  /** `jwtDecode`: `None` stands for the library's `InvalidTokenError`. */
  type Decoder = string -> Option<Claims>

  /** `decoded.exp * 1000 < Date.now()`: `exp` is a NumericDate in seconds
      (section 4.1.4 of RFC 7519) and the clock reads milliseconds. A
      missing `exp` makes the product `NaN`, and `NaN < now` is false, so a
      token without `exp` never counts as expired. */
  predicate Expired(c: Claims, nowMs: int)
    ensures c.exp.None? ==> !Expired(c, nowMs)
  {
    c.exp.Some? && c.exp.value * 1000 < nowMs
  }

  /** Expiry falls at the first millisecond after the second `exp` names:
      a token is still valid during the millisecond `exp * 1000` itself and
      expired from the next one on. */
  lemma ExpiryBoundary(c: Claims)
    requires c.exp.Some?
    ensures !Expired(c, c.exp.value * 1000)
    ensures Expired(c, c.exp.value * 1000 + 1)
  {
  }

  /** Once expired, a token stays expired as the clock moves on. */
  lemma ExpiryMonotone(c: Claims, nowMs: int, laterMs: int)
    requires Expired(c, nowMs) && nowMs <= laterMs
    ensures Expired(c, laterMs)
  {
  }

}

=== FILE: login_page.dfy ===
/** The `Login` page: a redirect on mount for visitors who already hold a
    token, the login and registration forms with their validation, and
    `saveTokenAndRedirect`, which persists a fresh token and its role.
    `alert` becomes a returned value, `navigate` a returned path, and
    each request's outcome an input. */
module LoginPage {
  import opened Options
  import opened Text
  import opened Storage
  import opened Jwt
  import opened Http
  import opened Routes

  datatype Tab = LoginTab | RegisterTab

  datatype Form = Form(tab: Tab, name: string, email: string, password: string, loading: bool)

  /** The form as the page first shows it. */
  const InitialForm := Form(LoginTab, "Test User", "", "", false)

  /** The alerts the page raises. `Failure` carries the text of the
      `STATUS: … / MESSAGE: …` alert that every caught error produces. */
  datatype Alert =
    | MissingCredentials
    | MissingRegistration
    | LoggedIn(role: string)
    | Registered
    | AlreadyRegistered
    | Failure(text: string)

  /** Clicking a tab shows that tab and touches nothing else. */
  function SelectTab(f: Form, t: Tab): (r: Form)
    ensures r.tab == t
    ensures r.(tab := f.tab) == f
  {
    f.(tab := t)
  }

  // --------------------------------------------------------- mount effect

  /** The mount effect: with a token, go to `/admin` when the upper-cased
      stored role is `ADMIN` and to `/user` otherwise; without one, stay. */
  function AutoRedirect(store: Store): (r: Option<Path>)
    ensures r.None? <==> !HasToken(store)
    ensures r.Some? ==> (r.value == AdminPath <==> StoredRole(store) == "ADMIN")
    ensures r.Some? ==> r.value == AdminPath || r.value == UserPath
  {
    if HasToken(store) then
      (if StoredRole(store) == "ADMIN" then Some(AdminPath) else Some(UserPath))
    else None
  }

  // ------------------------------------------------- saveTokenAndRedirect

  datatype SaveOutcome =
    | Saved(store: Store, role: string, target: Path)
    | DecodeThrew(store: Store)

  /** `saveTokenAndRedirect(token)`: the token is stored verbatim first.
      If it decodes, the role — the `role` claim upper-cased, `"USER"` when
      the claim is missing or empty — is stored under `"role"` and the page
      heads for `/admin` exactly when that role is `ADMIN`, else `/user`.
      If it does not decode, the call throws with only the token written. */
  function SaveTokenAndRedirect(store: Store, decode: Decoder, token: string): (r: SaveOutcome)
    ensures GetItem(r.store, TokenKey) == Some(token)
    ensures r.DecodeThrew? <==> decode(token).None?
    ensures r.DecodeThrew? ==> r.store == SetItem(store, TokenKey, token)
    ensures r.Saved? ==>
              && r.role == Upper(Or(decode(token).value.role, "USER"))
              && r.store == SetItem(SetItem(store, TokenKey, token), RoleKey, r.role)
              && (r.target == AdminPath <==> r.role == "ADMIN")
              && (r.target == AdminPath || r.target == UserPath)
  {
    var stored := SetItem(store, TokenKey, token);
    match decode(token)
    case None => DecodeThrew(stored)
    case Some(claims) =>
      var role := Upper(Or(claims.role, "USER"));
      Saved(SetItem(stored, RoleKey, role), role, if role == "ADMIN" then AdminPath else UserPath)
  }

  // ---------------------------------------------------------- handleLogin

  datatype Credentials = Credentials(email: string, password: string)

  datatype LoginStart = LoginRejected | LoginSent(form: Form, request: Credentials)

  /** The synchronous part of `handleLogin`: a blank (empty or all
      white-space) email or password is refused without a request and
      without touching `loading`; otherwise `loading` is raised and the
      trimmed credentials are sent. */
  function StartLogin(f: Form): (r: LoginStart)
    ensures r.LoginRejected? <==> IsBlank(f.email) || IsBlank(f.password)
    ensures r.LoginSent? ==>
              && r.form == f.(loading := true)
              && r.request == Credentials(Trim(f.email), Trim(f.password))
              && r.request.email != "" && r.request.password != ""
  {
    TrimEmptyIffBlank(f.email);
    TrimEmptyIffBlank(f.password);
    if Trim(f.email) == "" || Trim(f.password) == "" then LoginRejected
    else LoginSent(f.(loading := true), Credentials(Trim(f.email), Trim(f.password)))
  }

  datatype LoginStep = LoginStep(form: Form, store: Store, nav: Option<Path>, alert: Alert)

  /** The alert for an error that carries no HTTP response, only its own
      `message`: the status reads "NO STATUS" and the message is the
      error's, or the fallback when that message is empty. */
  lemma ResponselessAlert(m: string, fallback: string)
    ensures AlertText(HttpError(None, None, Some(m)), fallback)
            == "STATUS: NO STATUS\nMESSAGE: " + (if m != "" then m else fallback)
  {
  }

  /** The rest of `handleLogin`, once the request settles with `reply`
      (the token in the response body, or the error). A token that decodes
      is saved, the page moves to its dashboard and the fields are cleared.
      A token that does not decode stays in storage, and the decoder's
      exception (whose message is `decodeError`) is caught by the same
      handler as a failed request: it has no response, so the alert reads
      "NO STATUS" with the exception's message. A failed request changes
      only `loading`. `loading` ends false on every path. */
  function FinishLogin(f: Form, store: Store, decode: Decoder, decodeError: string, reply: Reply<string>): (r: LoginStep)
    ensures !r.form.loading
    ensures r.nav.Some? <==> reply.Ok? && decode(reply.body).Some?
    ensures reply.Ok? && decode(reply.body).Some? ==>
              var s := SaveTokenAndRedirect(store, decode, reply.body);
              && r.store == s.store
              && r.nav == Some(s.target)
              && r.alert == LoggedIn(s.role)
              && r.form == f.(email := "", password := "", loading := false)
    ensures reply.Ok? && decode(reply.body).None? ==>
              && r.store == SetItem(store, TokenKey, reply.body)
              && r.form == f.(loading := false)
              && r.alert == Failure(AlertText(HttpError(None, None, Some(decodeError)), "Login failed"))
    ensures reply.Failed? ==>
              && r.store == store
              && r.form == f.(loading := false)
              && r.alert == Failure(AlertText(reply.error, "Login failed"))
    ensures r.nav.None? ==> r.alert.Failure? && r.form == f.(loading := false)
  {
    match reply
    case Failed(e) => LoginStep(f.(loading := false), store, None, Failure(AlertText(e, "Login failed")))
    case Ok(token) =>
      match SaveTokenAndRedirect(store, decode, token)
      case DecodeThrew(s) =>
        LoginStep(f.(loading := false), s, None, Failure(AlertText(HttpError(None, None, Some(decodeError)), "Login failed")))
      case Saved(s, role, target) =>
        LoginStep(f.(email := "", password := "", loading := false), s, Some(target), LoggedIn(role))
  }

  /** `handleLogin` from click to settlement: a refused form changes
      nothing (and `reply` is never asked for); an accepted one ends with
      `loading` false, and only a successful login navigates. */
  function HandleLogin(f: Form, store: Store, decode: Decoder, decodeError: string, reply: Reply<string>): (r: LoginStep)
    ensures IsBlank(f.email) || IsBlank(f.password) ==>
              r == LoginStep(f, store, None, MissingCredentials)
    ensures !(IsBlank(f.email) || IsBlank(f.password)) ==> !r.form.loading
    ensures !(IsBlank(f.email) || IsBlank(f.password)) ==>
              r == FinishLogin(f.(loading := true), store, decode, decodeError, reply)
    ensures r.nav.Some? ==> r.form.email == "" && r.form.password == "" && GetItem(r.store, RoleKey).Some?
  {
    match StartLogin(f)
    case LoginRejected => LoginStep(f, store, None, MissingCredentials)
    case LoginSent(g, _) => FinishLogin(g, store, decode, decodeError, reply)
  }

  // ------------------------------------------------------- handleRegister

  datatype Registration = Registration(name: string, email: string, password: string, role: string)

  datatype RegisterStart = RegisterRejected | RegisterSent(form: Form, request: Registration)

  /** The synchronous part of `handleRegister`: name, email and password
      must all be non-blank; the request carries them trimmed and always
      asks for the role `USER`. */
  function StartRegister(f: Form): (r: RegisterStart)
    ensures r.RegisterRejected? <==> IsBlank(f.name) || IsBlank(f.email) || IsBlank(f.password)
    ensures r.RegisterSent? ==>
              && r.form == f.(loading := true)
              && r.request == Registration(Trim(f.name), Trim(f.email), Trim(f.password), "USER")
  {
    TrimEmptyIffBlank(f.name);
    TrimEmptyIffBlank(f.email);
    TrimEmptyIffBlank(f.password);
    if Trim(f.name) == "" || Trim(f.email) == "" || Trim(f.password) == "" then RegisterRejected
    else RegisterSent(f.(loading := true), Registration(Trim(f.name), Trim(f.email), Trim(f.password), "USER"))
  }

  datatype RegisterStep = RegisterStep(form: Form, alert: Alert)

  /** The rest of `handleRegister`. Success switches to the login tab and
      clears the password but keeps the email; a 409 (email taken) switches
      to the login tab and keeps both; any other failure only alerts.
      `loading` ends false on every path, the 409 early return included. */
  function FinishRegister(f: Form, reply: Reply<()>): (r: RegisterStep)
    ensures !r.form.loading
    ensures r.form.email == f.email && r.form.name == f.name
    ensures reply.Ok? ==> r.form == f.(tab := LoginTab, password := "", loading := false) && r.alert == Registered
    ensures reply.Failed? && reply.error.status == Some(409) ==>
              r.form == f.(tab := LoginTab, loading := false) && r.alert == AlreadyRegistered
    ensures reply.Failed? && reply.error.status != Some(409) ==>
              r.form == f.(loading := false) && r.alert == Failure(AlertText(reply.error, "Register failed"))
  {
    match reply
    case Ok(_) => RegisterStep(f.(tab := LoginTab, password := "", loading := false), Registered)
    case Failed(e) =>
      if e.status == Some(409) then RegisterStep(f.(tab := LoginTab, loading := false), AlreadyRegistered)
      else RegisterStep(f.(loading := false), Failure(AlertText(e, "Register failed")))
  }

  /** `handleRegister` from click to settlement. */
  function HandleRegister(f: Form, reply: Reply<()>): (r: RegisterStep)
    ensures IsBlank(f.name) || IsBlank(f.email) || IsBlank(f.password) ==>
              r == RegisterStep(f, MissingRegistration)
    ensures !(IsBlank(f.name) || IsBlank(f.email) || IsBlank(f.password)) ==>
              !r.form.loading && (r.form.tab == LoginTab <==> reply.Ok? || reply.error.status == Some(409) || f.tab == LoginTab)
    ensures !(IsBlank(f.name) || IsBlank(f.email) || IsBlank(f.password)) ==>
              r == FinishRegister(f.(loading := true), reply)
  {
    match StartRegister(f)
    case RegisterRejected => RegisterStep(f, MissingRegistration)
    case RegisterSent(g, _) => FinishRegister(g, reply)
  }

  /** After a successful registration the login tab is shown with the
      email kept but the password cleared, so logging in is refused until a
      password is typed again; with any non-blank password it goes out for
      the registered email. */
  lemma RegisterThenLogin(f: Form, password: string)
    requires !(IsBlank(f.name) || IsBlank(f.email) || IsBlank(f.password))
    ensures var r := HandleRegister(f, Ok(()));
            && r.form.tab == LoginTab && r.form.email == f.email && r.alert == Registered
            && StartLogin(r.form).LoginRejected?
            && (!IsBlank(password) ==>
                  var again := StartLogin(r.form.(password := password));
                  again.LoginSent? && again.request == Credentials(Trim(f.email), Trim(password)))
  {
    var r := HandleRegister(f, Ok(()));
    assert IsBlank(r.form.password);
  }

  /** The page as first shown: the login tab, with email and password
      empty, so a login is refused until both are typed; the registration
      form only lacks an email and a password, the name being prefilled. */
  lemma FirstView()
    ensures InitialForm.tab == LoginTab
    ensures StartLogin(InitialForm).LoginRejected?
    ensures !IsBlank(InitialForm.name)
  {
    assert !IsWhitespace(InitialForm.name[0]);
  }

}

=== FILE: navbar.dfy ===
/** The navigation bar: the role it displays (decoded from the token when
    possible, else the stored role) and which buttons it shows. */
module Navbar {
  import opened Options
  import opened Text
  import opened Storage
  import opened Jwt

  /** With no token the role is the upper-cased stored role and nothing is
      decoded. With a token that decodes it is the upper-cased first truthy
      of: the `role` claim, the stored role, `"USER"`. A token that fails to
      decode leaves the stored role in place. */
  function DisplayedRole(store: Store, decode: Decoder): (r: string)
    ensures IsUpper(r)
    ensures !HasToken(store) ==> r == StoredRole(store)
    ensures HasToken(store) && decode(store[TokenKey]).None? ==> r == StoredRole(store)
    ensures HasToken(store) && decode(store[TokenKey]).Some? ==>
              var claim := decode(store[TokenKey]).value.role;
              && (Truthy(claim) ==> r == Upper(claim.value))
              && (!Truthy(claim) && StoredRole(store) != "" ==> r == StoredRole(store))
              && (!Truthy(claim) && StoredRole(store) == "" ==> r == "USER")
  {
    var stored := StoredRole(store);
    if !HasToken(store) then stored
    else
      match decode(store[TokenKey])
      case None => stored
      case Some(claims) =>
        UpperIsUpper(Or(claims.role, Or(Some(stored), "USER")));
        UpperFixesUpper(stored);
        Upper(Or(claims.role, Or(Some(stored), "USER")))
  }

  datatype View = View(
    roleLabel: Option<string>,
    userDashboard: bool,
    adminDashboard: bool,
    loginButton: bool,
    logoutButton: bool)

  /** What the bar shows: the role label only with a token; the dashboard
      button matching the displayed role (never both); Login without a
      token and Logout with one. */
  function Render(store: Store, decode: Decoder): (v: View)
    ensures v.roleLabel.Some? <==> HasToken(store)
    ensures v.roleLabel.Some? ==> v.roleLabel.value == DisplayedRole(store, decode)
    ensures v.userDashboard <==> HasToken(store) && DisplayedRole(store, decode) == "USER"
    ensures v.adminDashboard <==> HasToken(store) && DisplayedRole(store, decode) == "ADMIN"
    ensures !(v.userDashboard && v.adminDashboard)
    ensures v.loginButton <==> !HasToken(store)
    ensures v.logoutButton <==> HasToken(store)
  {
    var token := HasToken(store);
    var role := DisplayedRole(store, decode);
    View(
      if token then Some(role) else None,
      token && role == "USER",
      token && role == "ADMIN",
      !token,
      token)
  }

  /** The bar can show a dashboard button for a role the route table will
      refuse: with a token whose claim says `admin` but no stored role, the
      bar offers the admin dashboard while the stored role is empty. */
  lemma BarTrustsTokenOverStorage(store: Store, decode: Decoder)
    requires HasToken(store) && RoleKey !in store
    requires decode(store[TokenKey]) == Some(Claims(Some("admin"), None, None))
    ensures Render(store, decode).adminDashboard
    ensures StoredRole(store) == ""
  {
    assert Upper("admin") == "ADMIN";
  }

}

=== FILE: navigation.dfy ===
/** How the routing decisions compose. Rendering a URL either settles on a
    page or moves on: a redirect of the route table, `Home`'s redirect, or
    the login page's mount redirect. They do not all read storage at the
    same moment. `App` reads it once, when it renders, and that happens
    only when the page is loaded: its guards keep using what they read
    then (`seen` below), while `Home` and the login page read storage as it
    is when they are shown (`store`). On a freshly loaded page the two
    coincide; after an in-session change of storage they may not. */
module Navigation {
  import opened Options
  import opened Storage
  import opened Jwt
  import opened Routes
  import opened App
  import Home
  import LoginPage
  import AuthContext
  import ProtectedRoute
  import Agreements

  /** Where rendering `url` moves to next, or `None` when it stays. */
  function Next(url: string, seen: Store, store: Store): (n: Option<string>)
    ensures n.Some? ==> n.value == "/" || n.value == "/login" || n.value == "/admin" || n.value == "/user"
    ensures n.None? <==>
              || (url == "/login" && !HasToken(store))
              || App.Route(url, seen) == Render(AdminView)
              || App.Route(url, seen) == Render(UserView)
  {
    match App.Route(url, seen)
    case Redirect(p) => Some(Url(p))
    case Render(HomeView) => Some(Url(Home.Redirect(store)))
    case Render(LoginView) =>
      (match LoginPage.AutoRedirect(store)
       case Some(p) => Some(Url(p))
       case None => None)
    case Render(_) => None
  }

  /** The URL reached after at most `steps` moves from `url`. */
  function Follow(url: string, seen: Store, store: Store, steps: nat): string
    decreases steps
  {
    if steps == 0 then url
    else
      match Next(url, seen, store)
      case None => url
      case Some(u) => Follow(u, seen, store, steps - 1)
  }

  /** Two URLs that send the visitor to each other are revisited every
      second move, forever. */
  lemma {:induction false} Bounces(a: string, b: string, seen: Store, store: Store, rounds: nat)
    requires Next(a, seen, store) == Some(b) && Next(b, seen, store) == Some(a)
    ensures Follow(a, seen, store, 2 * rounds) == a
  {
    if rounds > 0 {
      Bounces(a, b, seen, store, rounds - 1);
      assert Follow(a, seen, store, 2 * rounds) == Follow(b, seen, store, 2 * rounds - 1);
      assert Follow(b, seen, store, 2 * rounds - 1) == Follow(a, seen, store, 2 * (rounds - 1));
    }
  }

  // ------------------------------------------------ a freshly loaded page

  /** On a page loaded without a token every URL reaches the login page
      within two moves, and the login page stays put. */
  lemma SignedOutEndsOnLogin(store: Store, url: string)
    requires !HasToken(store)
    ensures Follow(url, store, store, 2) == "/login"
    ensures Next("/login", store, store).None?
  {
    if url != "/" && url != "/login" && url != "/admin" && url != "/user" {
      assert Next(url, store, store) == Some("/");
      assert Next("/", store, store) == Some("/login");
      assert Follow("/login", store, store, 0) == "/login";
    } else if url == "/" {
      assert Next("/login", store, store).None?;
    }
  }

  /** On a page loaded with a token and a stored role of `ADMIN` or `USER`
      (any case), every URL reaches that role's dashboard within two moves,
      and the dashboard stays put. */
  lemma KnownRoleEndsOnDashboard(store: Store, url: string, r: Role)
    requires HasToken(store) && StoredRole(store) == RoleName(r)
    ensures Follow(url, store, store, 2) == Url(Dashboard(r))
    ensures Next(Url(Dashboard(r)), store, store).None?
  {
    var home := Url(Dashboard(r));
    assert Next(home, store, store).None?;
    if url != "/" && url != "/login" && url != "/admin" && url != "/user" {
      assert Next(url, store, store) == Some("/");
      assert Next("/", store, store) == Some(home);
      assert Follow(home, store, store, 0) == home;
    } else if url == "/" || url == "/login" {
      assert Next(url, store, store) == Some(home);
      assert Follow(home, store, store, 1) == home;
    } else if url != home {
      assert Next(url, store, store) == Some("/login");
      assert Next("/login", store, store) == Some(home);
      assert Follow(home, store, store, 0) == home;
    }
  }

  /** On a page loaded with a token whose stored role is neither `ADMIN`
      nor `USER` — including no stored role at all — no URL stays put:
      `/user` sends the visitor to `/login`, whose mount redirect sends them
      back. */
  lemma UnknownRoleNeverSettles(store: Store, url: string)
    requires HasToken(store) && StoredRole(store) != "ADMIN" && StoredRole(store) != "USER"
    ensures Next(url, store, store).Some?
    ensures Next("/user", store, store) == Some("/login")
    ensures Next("/login", store, store) == Some("/user")
  {
  }

  /** ... and so the visitor comes back to `/user` every second move,
      forever. */
  lemma UnknownRoleCycles(store: Store, rounds: nat)
    requires HasToken(store) && StoredRole(store) != "ADMIN" && StoredRole(store) != "USER"
    ensures Follow("/user", store, store, 2 * rounds) == "/user"
  {
    UnknownRoleNeverSettles(store, "/user");
    Bounces("/user", "/login", store, store, rounds);
  }

  // ------------------------------------------ storage changed in session

  /** The context's `login` never writes `"role"`. Whenever the route
      table's own read of storage held no role either — the page was loaded
      before the login, with no role stored, or is reloaded after it — no
      URL settles: the dashboards send the visitor to `/login`, and `/login`
      and `/` send them to `/user`. */
  lemma ContextLoginNeverLands(st: AuthContext.AuthState, decode: Decoder, token: string, seen: Store, url: string)
    requires RoleKey !in st.store && token != ""
    requires RoleKey !in seen
    ensures var r := AuthContext.Login(st, decode, token);
            && HasToken(r.state.store)
            && StoredRole(r.state.store) == ""
            && Next(url, seen, r.state.store).Some?
            && Next("/user", seen, r.state.store) == Some("/login")
            && Next("/login", seen, r.state.store) == Some("/user")
  {
    var r := AuthContext.Login(st, decode, token);
    assert GetItem(r.state.store, TokenKey) == Some(token);
  }

  /** The context's `login` leaves an earlier stored role in place, so
      after a reload it lands on that role's dashboard, whatever the new
      token's own role claim says. */
  lemma ContextLoginKeepsStoredRole(st: AuthContext.AuthState, decode: Decoder, token: string, r: Role)
    requires token != "" && StoredRole(st.store) == RoleName(r)
    ensures var after := AuthContext.Login(st, decode, token).state.store;
            && App.Route(Url(Dashboard(r)), after) == Render(if r == Admin then AdminView else UserView)
            && Next(Url(Dashboard(r)), after, after).None?
  {
    var after := AuthContext.Login(st, decode, token).state.store;
    assert GetItem(after, TokenKey) == Some(token);
    assert GetItem(after, RoleKey) == GetItem(st.store, RoleKey);
  }

  /** After the login page saves a token whose derived role is `ADMIN` or
      `USER`, a reload renders the dashboard it navigated to; with any other
      derived role no URL settles after a reload. */
  lemma SavedLoginLandsAfterReload(store: Store, decode: Decoder, token: string, url: string)
    requires token != "" && LoginPage.SaveTokenAndRedirect(store, decode, token).Saved?
    ensures var s := LoginPage.SaveTokenAndRedirect(store, decode, token);
            && (s.role == "ADMIN" ==> App.Route(Url(s.target), s.store) == App.Render(App.AdminView))
            && (s.role == "USER" ==> App.Route(Url(s.target), s.store) == App.Render(App.UserView))
            && (s.role != "ADMIN" && s.role != "USER" ==> Next(url, s.store, s.store).Some?)
  {
    var s := LoginPage.SaveTokenAndRedirect(store, decode, token);
    Agreements.SavedSessionReadsBack(store, decode, token);
    assert HasToken(s.store);
    if s.role != "ADMIN" && s.role != "USER" {
      UnknownRoleNeverSettles(s.store, url);
    }
  }

  /** Without a reload, the dashboard the login page navigates to renders
      only if the route table already admitted that role when the page was
      loaded (`seen`). Otherwise the dashboard sends the visitor to
      `/login`, whose mount redirect — reading the freshly saved storage —
      sends them straight back, forever: in particular after logging in on
      a page that was loaded signed out. */
  lemma SavedLoginInSession(store: Store, decode: Decoder, token: string, seen: Store, rounds: nat)
    requires token != "" && LoginPage.SaveTokenAndRedirect(store, decode, token).Saved?
    requires LoginPage.SaveTokenAndRedirect(store, decode, token).role in {"ADMIN", "USER"}
    ensures var s := LoginPage.SaveTokenAndRedirect(store, decode, token);
            Next(Url(s.target), seen, s.store).None? <==> HasToken(seen) && StoredRole(seen) == s.role
    ensures var s := LoginPage.SaveTokenAndRedirect(store, decode, token);
            !(HasToken(seen) && StoredRole(seen) == s.role) ==>
              && Next(Url(s.target), seen, s.store) == Some("/login")
              && Next("/login", seen, s.store) == Some(Url(s.target))
              && Follow(Url(s.target), seen, s.store, 2 * rounds) == Url(s.target)
  {
    var s := LoginPage.SaveTokenAndRedirect(store, decode, token);
    Agreements.SavedSessionReadsBack(store, decode, token);
    assert HasToken(s.store);
    if !(HasToken(seen) && StoredRole(seen) == s.role) {
      assert Next(Url(s.target), seen, s.store) == Some("/login");
      Bounces(Url(s.target), "/login", seen, s.store, rounds);
    }
  }

  /** A stored token that has expired is purged by the context's mount
      effect, after `App` has rendered with it. A `/` or `/login` visited
      after the purge, and `ProtectedRoute` (were it mounted), see no
      token, and after a reload every URL leads to the login page; but
      until a reload the route table still opens the dashboard of the role
      stored beside the expired token. On the very load that purges, `Home`
      and the login page have already acted on the stale token: their
      redirects and mount effects run before the provider's effect, which
      runs last as the outermost component. */
  lemma ExpiredTokenLeadsToLogin(store: Store, decode: Decoder, nowMs: int, url: string, allowed: Option<Role>)
    requires HasToken(store) && decode(store[TokenKey]).Some?
    requires Expired(decode(store[TokenKey]).value, nowMs)
    ensures var r := AuthContext.Restore(AuthContext.Mount(store), decode, nowMs);
            && r.session.token.None?
            && ProtectedRoute.Decide(r.store, allowed) == ProtectedRoute.RedirectTo(LoginPath)
            && Next("/", store, r.store) == Some("/login")
            && Next("/login", store, r.store).None?
            && Follow(url, r.store, r.store, 2) == "/login"
    ensures var r := AuthContext.Restore(AuthContext.Mount(store), decode, nowMs);
            forall role: Role :: StoredRole(store) == RoleName(role) ==> Next(Url(Dashboard(role)), store, r.store).None?
  {
    var r := AuthContext.Restore(AuthContext.Mount(store), decode, nowMs);
    assert !HasToken(r.store);
    SignedOutEndsOnLogin(r.store, url);
  }

}

=== FILE: options.dfy ===
/** A value that may be absent: the model's rendering of JavaScript's
    `null` / `undefined` for storage reads, claims and HTTP fields. */
module Options {

  datatype Option<+T> = None | Some(value: T)

}

=== FILE: protected_route.dfy ===
/** `ProtectedRoute`: the guard component. It reads storage directly (not
    the authentication context) and decides between rendering its
    children and redirecting. It never writes storage: its result is a
    decision and nothing else. */
module ProtectedRoute {
  import opened Options
  import opened Text
  import opened Storage
  import opened Routes

  datatype Decision = RenderChildren | RedirectTo(target: Path)

  /** The login check comes first: no token means the login page, whatever
      role is asked for. With a token, a required role that differs from
      the upper-cased stored role (a missing `"role"` key reads as `""`,
      which matches no role) sends the user home; otherwise the children
      render. */
  function Decide(store: Store, allowedRole: Option<Role>): (d: Decision)
    ensures !HasToken(store) ==> d == RedirectTo(LoginPath)
    ensures HasToken(store) && allowedRole.Some? && StoredRole(store) != RoleName(allowedRole.value) ==>
              d == RedirectTo(Root)
    ensures d == RenderChildren <==>
              HasToken(store) && (allowedRole.None? || StoredRole(store) == RoleName(allowedRole.value))
    ensures d == RedirectTo(Root) ==> HasToken(store)
    ensures d.RedirectTo? ==> d.target == LoginPath || d.target == Root
  {
    var role := StoredRole(store);
    if !HasToken(store) then RedirectTo(LoginPath)
    else if allowedRole.Some? && role != RoleName(allowedRole.value) then RedirectTo(Root)
    else RenderChildren
  }

  /** A token without a stored role passes an unrestricted guard and fails
      every restricted one. */
  lemma MissingRoleFailsEveryRestriction(store: Store, r: Role)
    requires HasToken(store) && RoleKey !in store
    ensures Decide(store, None) == RenderChildren
    ensures Decide(store, Some(r)) == RedirectTo(Root)
  {
  }

  /** The stored role is compared case-insensitively: for every stored
      value and every required role, the guard decides as it would had the
      value been stored upper-cased. */
  lemma StoredRoleCaseInsensitive(store: Store, v: string, r: Role)
    ensures Decide(store[RoleKey := v], Some(r)) == Decide(store[RoleKey := Upper(v)], Some(r))
  {
    var lower, upper := store[RoleKey := v], store[RoleKey := Upper(v)];
    assert GetItem(lower, TokenKey) == GetItem(upper, TokenKey);
    UpperIdempotent(v);
    assert StoredRole(lower) == StoredRole(upper);
  }

}

=== FILE: routes.dfy ===
/** The client-side paths the routing decisions choose between, and the
    two role names the guards compare against. */
module Routes {

  datatype Path = Root | LoginPath | AdminPath | UserPath

  /** The URL each path stands for. */
  function Url(p: Path): (u: string)
    ensures u != "" && u[0] == '/'
  {
    match p
    case Root => "/"
    case LoginPath => "/login"
    case AdminPath => "/admin"
    case UserPath => "/user"
  }

  /** The values of `allowedRole` and of the role checks. */
  datatype Role = Admin | User

  function RoleName(r: Role): (n: string)
    ensures n == "ADMIN" || n == "USER"
  {
    match r
    case Admin => "ADMIN"
    case User => "USER"
  }

  /** The dashboard that belongs to each role. */
  function Dashboard(r: Role): (p: Path)
    ensures p == AdminPath || p == UserPath
  {
    match r
    case Admin => AdminPath
    case User => UserPath
  }

}

=== FILE: storage.dfy ===
/** The browser's `localStorage` as an immutable string-to-string map, and
    the two reads of it that every guard in the client repeats: "is there
    a token?" and "what is the stored role, upper-cased?". */
module Storage {
  import opened Options
  import opened Text

  type Store = map<string, string>

  const TokenKey: string := "token"
  const RoleKey: string := "role"

  /** `localStorage.getItem(key)`: the stored string, or `null`. */
  function GetItem(store: Store, key: string): (r: Option<string>)
    ensures r.Some? <==> key in store
    ensures r.Some? ==> r.value == store[key]
  {
    if key in store then Some(store[key]) else None
  }

  /** `localStorage.setItem(key, value)`: `key` now holds `value`, no other
      key changes. */
  function SetItem(store: Store, key: string, value: string): (r: Store)
    ensures r.Keys == store.Keys + {key}
    ensures GetItem(r, key) == Some(value)
    ensures forall k :: k in store && k != key ==> r[k] == store[k]
  {
    store[key := value]
  }

  /** `localStorage.removeItem(key)`: `key` is gone, no other key changes. */
  function RemoveItem(store: Store, key: string): (r: Store)
    ensures r.Keys == store.Keys - {key}
    ensures forall k :: k in r ==> r[k] == store[k]
  {
    store - {key}
  }

  /** `localStorage.clear()`. */
  function Clear(): (r: Store)
    ensures forall k :: GetItem(r, k).None?
  {
    map[]
  }

  /** `!!localStorage.getItem("token")`: a token is present and non-empty. */
  predicate HasToken(store: Store)
    ensures HasToken(store) <==> TokenKey in store && store[TokenKey] != ""
  {
    Truthy(GetItem(store, TokenKey))
  }

  /** `(localStorage.getItem("role") || "").toUpperCase()`: the stored
      role, upper-cased, with a missing key read as the empty string. */
  function StoredRole(store: Store): (r: string)
    ensures IsUpper(r)
    ensures RoleKey !in store ==> r == ""
    ensures RoleKey in store ==> r == Upper(store[RoleKey])
  {
    UpperIsUpper(Or(GetItem(store, RoleKey), ""));
    Upper(Or(GetItem(store, RoleKey), ""))
  }

}

=== FILE: text.dfy ===
/** The JavaScript string primitives the client leans on: `toUpperCase`
    (ASCII letters only), `trim` (the ECMAScript white-space and line
    terminator set), the truthiness of a `string | null`, the `a || b`
    fallback and the decimal rendering of a number inside a template
    literal. */
module Text {
  import opened Options

  // ---------------------------------------------------------------- case

  predicate IsLowerAscii(c: char) {
    'a' <= c <= 'z'
  }

  /** `toUpperCase` on one character: ASCII lower-case letters move to
      upper case, every other character is left alone. */
  function UpperChar(c: char): (u: char)
    ensures IsLowerAscii(c) ==> u as int == c as int - 32
    ensures !IsLowerAscii(c) ==> u == c
    ensures !IsLowerAscii(u)
  {
    if IsLowerAscii(c) then (c as int - 32) as char else c
  }

  /** `s.toUpperCase()`, character by character. */
  function Upper(s: string): (r: string)
    ensures |r| == |s|
    ensures forall i :: 0 <= i < |s| ==> r[i] == UpperChar(s[i])
  {
    if s == [] then [] else [UpperChar(s[0])] + Upper(s[1..])
  }

  /** No ASCII lower-case letter occurs in `s`. */
  predicate IsUpper(s: string) {
    forall i :: 0 <= i < |s| ==> !IsLowerAscii(s[i])
  }

  lemma UpperIsUpper(s: string)
    ensures IsUpper(Upper(s))
  {
  }

  /** Upper-casing a string that has no lower-case letter changes nothing. */
  lemma UpperFixesUpper(s: string)
    requires IsUpper(s)
    ensures Upper(s) == s
  {
    assert forall i :: 0 <= i < |s| ==> Upper(s)[i] == s[i];
  }

  /** Upper-casing twice is upper-casing once. */
  lemma UpperIdempotent(s: string)
    ensures Upper(Upper(s)) == Upper(s)
  {
    UpperIsUpper(s);
    UpperFixesUpper(Upper(s));
  }

  // ---------------------------------------------------------------- trim

  /** The characters `String.prototype.trim` removes: ECMAScript
      WhiteSpace (TAB, VT, FF, ZWNBSP and the Unicode Zs category) and
      LineTerminator (LF, CR, LS, PS). */
  predicate IsWhitespace(c: char) {
    var n := c as int;
    n == 0x09 || n == 0x0A || n == 0x0B || n == 0x0C || n == 0x0D || n == 0x20
    || n == 0xA0 || n == 0x1680 || (0x2000 <= n <= 0x200A) || n == 0x2028
    || n == 0x2029 || n == 0x202F || n == 0x205F || n == 0x3000 || n == 0xFEFF
  }

  /** Every character of `s` is white space (the empty string included). */
  predicate IsBlank(s: string) {
    forall i :: 0 <= i < |s| ==> IsWhitespace(s[i])
  }

  /** Drops the leading white space: the result is the suffix of `s` that
      starts at its first non-white-space character. */
  function TrimStart(s: string): (r: string)
    ensures |r| <= |s| && r == s[|s| - |r|..]
    ensures r == [] || !IsWhitespace(r[0])
    ensures forall i :: 0 <= i < |s| - |r| ==> IsWhitespace(s[i])
  {
    if s != [] && IsWhitespace(s[0]) then TrimStart(s[1..]) else s
  }

  /** Drops the trailing white space: the result is the prefix of `s` that
      ends at its last non-white-space character. */
  function TrimEnd(s: string): (r: string)
    ensures |r| <= |s| && r == s[..|r|]
    ensures r == [] || !IsWhitespace(r[|r| - 1])
    ensures forall i :: |r| <= i < |s| ==> IsWhitespace(s[i])
  {
    if s != [] && IsWhitespace(s[|s| - 1]) then TrimEnd(s[..|s| - 1]) else s
  }

  /** `s.trim()`: the slice of `s` left once the white space on both ends
      is cut off. */
  function Trim(s: string): (r: string)
    ensures |r| <= |s|
    ensures r == [] || (!IsWhitespace(r[0]) && !IsWhitespace(r[|r| - 1]))
    ensures exists i :: 0 <= i <= |s| - |r| && r == s[i..i + |r|]
                        && IsBlank(s[..i]) && IsBlank(s[i + |r|..])
  {
    var t := TrimStart(s);
    var r := TrimEnd(t);
    var i := |s| - |t|;
    assert r == s[i..i + |r|];
    assert IsBlank(s[..i]);
    assert s[i + |r|..] == t[|r|..];
    r
  }

  /** `!s.trim()` holds exactly for the strings made only of white space. */
  lemma TrimEmptyIffBlank(s: string)
    ensures Trim(s) == [] <==> IsBlank(s)
  {
    var t := TrimStart(s);
    if Trim(s) == [] {
      // the leading-white-space cut left nothing that trimming the end could drop
      assert t == [];
    }
  }

  /** A trimmed string has nothing left to trim. */
  lemma TrimIdempotent(s: string)
    ensures Trim(Trim(s)) == Trim(s)
  {
    var r := Trim(s);
    assert TrimStart(r) == r;
    assert TrimEnd(r) == r;
  }

  // ---------------------------------------------------------- truthiness

  /** A `string | null` is truthy when it is present and non-empty. */
  predicate Truthy(o: Option<string>) {
    o.Some? && o.value != ""
  }

  /** `o || fallback` for a `string | null` operand. */
  function Or(o: Option<string>, fallback: string): (r: string)
    ensures Truthy(o) ==> r == o.value
    ensures !Truthy(o) ==> r == fallback
    ensures r != "" <==> Truthy(o) || fallback != ""
  {
    if Truthy(o) then o.value else fallback
  }

  // ------------------------------------------------------------- numbers

  predicate IsDigit(c: char) {
    '0' <= c <= '9'
  }

  predicate IsDigits(s: string) {
    forall i :: 0 <= i < |s| ==> IsDigit(s[i])
  }

  function DigitChar(d: nat): (c: char)
    requires d < 10
    ensures IsDigit(c) && c as int - '0' as int == d
  {
    ('0' as int + d) as char
  }

  /** How a non-negative integer is rendered inside a template literal:
      its decimal digits, most significant first, with no leading zero. */
  function NatToString(n: nat): (s: string)
    ensures s != [] && IsDigits(s)
    ensures |s| > 1 ==> s[0] != '0'
  {
    if n < 10 then [DigitChar(n)] else NatToString(n / 10) + [DigitChar(n % 10)]
  }

  /** The value a string of decimal digits denotes. */
  function DecimalValue(s: string): nat
    requires IsDigits(s)
  {
    if s == [] then 0 else DecimalValue(s[..|s| - 1]) * 10 + (s[|s| - 1] as int - '0' as int)
  }

  /** The decimal rendering loses nothing: reading it back gives the number. */
  lemma {:induction false} DecimalRoundTrip(n: nat)
    ensures DecimalValue(NatToString(n)) == n
  {
    if n >= 10 {
      var s := NatToString(n);
      assert s[..|s| - 1] == NatToString(n / 10);
      DecimalRoundTrip(n / 10);
    }
  }

  /** Distinct numbers are rendered as distinct strings. */
  lemma NatToStringInjective(m: nat, n: nat)
    requires NatToString(m) == NatToString(n)
    ensures m == n
  {
    DecimalRoundTrip(m);
    DecimalRoundTrip(n);
  }

}

=== FILE: user_page.dfy ===
/** The guest's dashboard: the reservation form with its validation and
    reset, the guest's own reservation list filtered by status, single
    cancellations, and a confirm-gated logout through the authentication
    context. */
module UserPage {
  import opened Options
  import opened Text
  import opened Http
  import opened Routes
  import AuthContext

  /** The four bookable slots, earliest first. */
  const TimeSlots: seq<string> := ["17:00-18:00", "18:00-19:00", "19:00-20:00", "20:00-21:00"]

  /** The slot the form starts with and returns to. */
  const DefaultSlot: string := "17:00-18:00"

  lemma DefaultSlotIsFirst()
    ensures |TimeSlots| == 4 && TimeSlots[0] == DefaultSlot
    ensures forall i, j :: 0 <= i < j < |TimeSlots| ==> TimeSlots[i] != TimeSlots[j]
  {
  }

  datatype Reservation = Reservation(id: string, date: string, timeSlot: string, guests: int, status: string)

  datatype State = State(
    date: string,
    timeSlot: string,
    guests: int,
    reservations: seq<Reservation>,
    loading: bool,
    loadingList: bool,
    statusFilter: string,
    msg: Option<Message>)

  const Initial := State("", DefaultSlot, 1, [], false, false, "ACTIVE", None)

  // ---------------------------------------------------------------- create

  /** `!date || !timeSlot || guests < 1`. The slot comes from a select
      whose options are all non-empty, so for a slot picked there only the
      date and the guest count can make the form invalid. */
  predicate FormInvalid(s: State)
    ensures s.timeSlot in TimeSlots ==> (FormInvalid(s) <==> s.date == "" || s.guests < 1)
  {
    s.date == "" || s.timeSlot == "" || s.guests < 1
  }

  datatype CreateRequest = CreateRequest(date: string, timeSlot: string, guests: int)

  datatype CreateStart = CreateRejected(state: State) | CreateSent(state: State, request: CreateRequest)

  /** The synchronous part of `handleCreateReservation`: an empty date, an
      empty slot or fewer than one guest is refused with an error message
      and no request; otherwise `loading` is raised and the form is sent
      as it stands. */
  function StartCreate(s: State): (r: CreateStart)
    ensures r.CreateRejected? <==> FormInvalid(s)
    ensures r.CreateRejected? ==> r.state == s.(msg := Some(Message(Error, "Fill all fields correctly")))
    ensures r.CreateSent? ==>
              && r.state == s.(loading := true)
              && r.request == CreateRequest(s.date, s.timeSlot, s.guests)
              && r.request.date != "" && r.request.timeSlot != "" && r.request.guests >= 1
  {
    if FormInvalid(s) then CreateRejected(s.(msg := Some(Message(Error, "Fill all fields correctly"))))
    else CreateSent(s.(loading := true), CreateRequest(s.date, s.timeSlot, s.guests))
  }

  /** The form after a successful reservation: empty date, one guest,
      first slot. */
  function ResetForm(s: State): (r: State)
    ensures r.date == "" && r.guests == 1 && r.timeSlot == TimeSlots[0]
    ensures r.(date := s.date, guests := s.guests, timeSlot := s.timeSlot) == s
  {
    s.(date := "", guests := 1, timeSlot := DefaultSlot)
  }

  /** The end of `handleCreateReservation`. Failure shows the server's
      message, else the error's, else "Reservation failed", and keeps the
      form. Success sets its message, resets the form and then calls
      `fetchMyReservations()` without awaiting it; that call's synchronous
      part clears the message box and raises `loadingList` in the same
      update, so the success text never reaches the screen and the list
      request for the current filter (`r.1`) is left pending. `loading`
      ends false either way. */
  function FinishCreate(s: State, reply: Reply<()>): (r: (State, Option<string>))
    ensures !r.0.loading
    ensures r.1.Some? <==> reply.Ok?
    ensures reply.Ok? ==>
              && r.0.date == "" && r.0.guests == 1 && r.0.timeSlot == DefaultSlot
              && r.0.msg.None? && r.0.loadingList
              && r.0.reservations == s.reservations && r.0.statusFilter == s.statusFilter
              && r.1 == Some(s.statusFilter)
    ensures reply.Failed? ==>
              r.0 == s.(loading := false, msg := Some(Message(Error, Describe(reply.error, "Reservation failed"))))
  {
    match reply
    case Ok(_) =>
      var shown := ResetForm(s).(msg := Some(Message(Success, "Reservation created successfully")));
      var (listing, filter) := StartList(shown);
      (listing.(loading := false), Some(filter))
    case Failed(e) =>
      (s.(loading := false, msg := Some(Message(Error, Describe(e, "Reservation failed")))), None)
  }

  /** A reservation that was actually sent either resets the form to a
      state the validation would refuse again (the date is empty) or keeps
      what was typed. */
  lemma CreateOutcome(s: State, reply: Reply<()>)
    requires StartCreate(s).CreateSent?
    ensures var r := FinishCreate(StartCreate(s).state, reply).0;
            && !r.loading
            && (reply.Ok? ==> FormInvalid(r) && r.timeSlot == DefaultSlot && r.guests == 1)
            && (reply.Failed? ==> !FormInvalid(r) && r.date == s.date)
  {
  }

  // ------------------------------------------------------------ the list

  /** `fetchMyReservations` begins: `loadingList` raised, message cleared;
      it asks for the current filter. */
  function StartList(s: State): (r: (State, string))
    ensures r.0 == s.(loadingList := true, msg := None)
    ensures r.1 == s.statusFilter
  {
    (s.(loadingList := true, msg := None), s.statusFilter)
  }

  /** `fetchMyReservations` ends. A falsy body (`None`) becomes the empty
      list; a failure shows the fallback chain ending in "Failed to load
      reservations" and keeps the old list. `loadingList` ends false. */
  function FinishList(s: State, reply: Reply<Option<seq<Reservation>>>): (r: State)
    ensures !r.loadingList
    ensures reply.Ok? && reply.body.None? ==> r.reservations == []
    ensures reply.Ok? && reply.body.Some? ==> r.reservations == reply.body.value
    ensures reply.Ok? ==> r.msg == s.msg
    ensures reply.Failed? ==>
              r.reservations == s.reservations
              && r.msg == Some(Message(Error, Describe(reply.error, "Failed to load reservations")))
    ensures r.loading == s.loading && r.statusFilter == s.statusFilter
    ensures r.(reservations := s.reservations, loadingList := s.loadingList, msg := s.msg) == s
  {
    match reply
    case Ok(body) =>
      s.(reservations := if body.Some? then body.value else [], loadingList := false)
    case Failed(e) =>
      s.(loadingList := false, msg := Some(Message(Error, Describe(e, "Failed to load reservations"))))
  }

  /** A list load from start to finish: the message box shows only the
      load's own error, never an older message, and `loadingList` ends
      false. */
  lemma ListLoadClearsOldMessage(s: State, reply: Reply<Option<seq<Reservation>>>)
    ensures var r := FinishList(StartList(s).0, reply);
            && !r.loadingList
            && (r.msg.Some? <==> reply.Failed?)
            && (reply.Ok? ==> r.reservations == if reply.body.Some? then reply.body.value else [])
  {
  }

  /** A created reservation, followed by the list load it starts: the
      form is reset, the message box shows only the load's error if any
      (the success text is never left on screen), and a successful load
      replaces the list. */
  lemma CreateThenList(s: State, reply: Reply<Option<seq<Reservation>>>)
    ensures var step := FinishCreate(s, Ok(()));
            var r := FinishList(step.0, reply);
            && step.1 == Some(s.statusFilter)
            && !r.loading && !r.loadingList
            && r.date == "" && r.guests == 1
            && (r.msg.Some? <==> reply.Failed?)
            && (r.msg.Some? ==> r.msg.value.tone == Error)
  {
    var step := FinishCreate(s, Ok(()));
    assert step.0.msg.None?;
  }

  // ---------------------------------------------------------------- cancel

  /** Only `ACTIVE` reservations offer Cancel. */
  predicate CanCancel(r: Reservation) {
    r.status == "ACTIVE"
  }

  datatype CancelStep = CancelStep(state: State, request: Option<string>, listRequest: Option<string>, failedAlert: bool)

  /** `handleCancelReservation`: a declined confirmation sends nothing and
      changes nothing. Otherwise the cancel request goes out. Failure raises
      the "Cancel failed" alert and changes nothing on the page. Success
      calls `fetchMyReservations()` without awaiting it, whose synchronous
      part clears the message box and raises `loadingList`, leaving the
      list request for the current filter pending. */
  function CancelReservation(s: State, id: string, confirmed: bool, reply: Reply<()>): (r: CancelStep)
    ensures !confirmed ==> r == CancelStep(s, None, None, false)
    ensures confirmed ==> r.request == Some(id)
    ensures r.listRequest.Some? <==> confirmed && reply.Ok?
    ensures r.failedAlert <==> confirmed && reply.Failed?
    ensures r.listRequest.Some? ==>
              && r.listRequest == Some(s.statusFilter)
              && r.state.loadingList && r.state.msg.None?
    ensures r.state.(loadingList := s.loadingList, msg := s.msg) == s
    ensures r.listRequest.None? ==> r.state == s
  {
    if !confirmed then CancelStep(s, None, None, false)
    else
      match reply
      case Ok(_) =>
        var (listing, filter) := StartList(s);
        CancelStep(listing, Some(id), Some(filter), false)
      case Failed(_) => CancelStep(s, Some(id), None, true)
  }

  /** A successful cancellation followed by the list load it starts: a
      successful load shows the server's list with an empty message box. */
  lemma CancelThenList(s: State, id: string, rows: seq<Reservation>)
    ensures var step := CancelReservation(s, id, true, Ok(()));
            var r := FinishList(step.state, Ok(Some(rows)));
            && step.listRequest == Some(s.statusFilter)
            && r.reservations == rows && r.msg.None? && !r.loadingList
            && r.(reservations := s.reservations, loadingList := s.loadingList, msg := s.msg) == s
  {
  }

  /** The guest's Logout button: a declined confirmation changes nothing;
      an accepted one runs the context's `logout` (which wipes all of
      storage) and goes to the login page. */
  function HandleLogout(st: AuthContext.AuthState, confirmed: bool): (r: (AuthContext.AuthState, Option<Path>))
    ensures !confirmed ==> r == (st, None)
    ensures confirmed ==> r.0 == AuthContext.Logout(st)
    ensures confirmed ==> r.0.store == map[] && r.0.session.token.None? && r.0.session.role.None? && r.1 == Some(LoginPath)
    ensures confirmed ==> r.0.session.loading == st.session.loading
  {
    if confirmed then (AuthContext.Logout(st), Some(LoginPath)) else (st, None)
  }

  /** The page as first shown: the form is refused until a date is picked
      (the default slot and one guest already pass), and the list load the
      mount effect starts asks for `ACTIVE` reservations. */
  lemma FirstView(date: string)
    ensures FormInvalid(Initial)
    ensures date != "" ==> !FormInvalid(Initial.(date := date))
    ensures StartList(Initial).1 == "ACTIVE"
  {
    assert Initial.timeSlot == TimeSlots[0];
  }

}

=== FILE: user_util.dfy ===
/** `getLoggedInUser()` of `utils/user.tsx`: a summary of the token's
    claims, read with JavaScript's `||` defaults. */
module UserUtil {
  import opened Options
  import opened Text
  import opened Storage
  import opened Jwt

  /** `role` is the claim as written (not upper-cased); a falsy `userId`
      or `exp` — an empty string, a zero — becomes `null`. */
  datatype LoggedInUser = LoggedInUser(userId: Option<string>, role: string, exp: Option<int>)

  /** `decoded.exp || null`. */
  function ExpOrNull(exp: Option<int>): (r: Option<int>)
    ensures r.Some? <==> exp.Some? && exp.value != 0
    ensures r.Some? ==> r == exp
  {
    if exp.Some? && exp.value != 0 then exp else None
  }

  /** `decoded.userId || null`. */
  function IdOrNull(id: Option<string>): (r: Option<string>)
    ensures r.Some? <==> Truthy(id)
    ensures r.Some? ==> r == id
  {
    if Truthy(id) then id else None
  }

  function GetLoggedInUser(store: Store, decode: Decoder): (r: Option<LoggedInUser>)
    ensures !HasToken(store) ==> r.None?
    ensures HasToken(store) && decode(store[TokenKey]).None? ==> r.None?
    ensures HasToken(store) && decode(store[TokenKey]).Some? ==>
              var c := decode(store[TokenKey]).value;
              && r.Some?
              && r.value.role == Or(c.role, "USER")
              && (r.value.userId.Some? <==> Truthy(c.userId))
              && (r.value.exp.Some? <==> c.exp.Some? && c.exp.value != 0)
              && (r.value.userId.Some? ==> r.value.userId == c.userId)
              && (r.value.exp.Some? ==> r.value.exp == c.exp)
    ensures r.Some? ==> r.value.role != ""
  {
    var token := GetItem(store, TokenKey);
    if !Truthy(token) then None
    else
      match decode(token.value)
      case None => None
      case Some(c) => Some(LoggedInUser(IdOrNull(c.userId), Or(c.role, "USER"), ExpOrNull(c.exp)))
  }

}
